=== FILE: README.md ===
# Typing-game progression, scoring and error analysis in Dafny

This project models the logic at the centre of a gamified typing-practice
application. A user types a passage. The application scores the attempt for
speed, accuracy and XP, and folds the result into a stored user profile. That
update adds to the test history, keeps running averages, levels the user up
along an XP curve, opens challenge tiers and grants achievements. Mistyped
characters are recorded and analysed, and the analysis steers the choice of
the next practice passage.

Modules:

- `Base` (base.dfy): shared pieces. `Option`; `Math.round` of a ratio of
  naturals; `Array.from(new Set(..))` as an insertion-ordered union; a stable
  sort by an integer key, and the top-`n` selection built on it.
- `Profile` (profile.dfy): lib/user-storage.ts. The profile record, the
  default profile and the XP curve. The level-up loop appears as a recursive
  function and as the `while` loop itself, proved equal. Also tier unlocks,
  achievements, `addTestResult`, and the shallow merges of load, update and
  reset.
- `SmartText` (smart_text.dfy): lib/smart-text-generator.ts.
  `trackTypingErrors`, the 100-entry cap of `storeTypingErrors` and
  `analyzeErrors`: per-character counts with at most five contexts, pair
  counts, `Object.values` order, count order and the top ten. Also the
  template table, the category and template-count choices and the dispatch
  of `generateSmartText`.
- `Scoring` (scoring.dfy): the arithmetic of `handleTestComplete` in
  components/typing-test.tsx. Word count, WPM, accuracy, the inline error
  list (proved equal to `trackTypingErrors`), the XP reward, the rounded time
  and the result passed to `addTestResult`. Also `getTimeLimit` and the
  exact-match completion test.

Modelling choices:

- JavaScript numbers are unbounded `int`/`nat`. Every value involved is a
  non-negative integer. `Math.round(a / b)` for naturals is `(2a + b) / (2b)`. Where the source can produce `Infinity`, the loop it reaches is modelled again on `Profile.Amount`, a whole number or `Infinity`.
- Identifiers, timestamps, the elapsed time and every `Math.random()` draw
  are parameters. A template draw is given as the index it yields.
- Browser storage is represented by the value it holds. `None` stands for a
  missing, empty or unparsable entry. Otherwise the entry is the set of
  fields it contains.
- `analyzeErrors` keeps the first five contexts of a character, because the
  code keeps the front of the list. Its comment says "last 5". The model
  follows the code.
- The default profile asks 100 XP for the first level. The curve would ask
  175. Both values are modelled and stated side by side.

## Model

| member | source | states |
|---|---|---|
| `Base.RoundDiv` | lib/user-storage.ts:112-115 | `Math.round(a/b)` for naturals: the result r satisfies b·2r ≤ 2a+b < b·(2r+2), so it is the nearest integer and halves round up |
| `Base.Union` | lib/user-storage.ts:132 | `Array.from(new Set([...a, ...b]))`: holds exactly the elements of a and b, has no duplicates, and keeps a duplicate-free `a` as a prefix in its order |
| `Base.UnionIdempotent` | lib/user-storage.ts:191-217 | adding the same list to a Set twice gives the same result as adding it once |
| `Base.SortByStable` | lib/smart-text-generator.ts:119-120 | the sort is stable: the elements of any one key keep their relative input order |
| `Base.TopBy` | lib/smart-text-generator.ts:119-125 | sort then `slice(0, n)`: returns min(len, n) elements drawn from the input, none more often than the input holds it (a sub-multiset), in key order, and none of them is outranked by an element left out |
| `Profile.DefaultProfile` | lib/user-storage.ts:38-60 | the starting profile, every field stated: level 1, no XP, 100 XP to the next level, zero averages, best WPM and time typed, no tests, tier list [1], no achievements, empty history, the default name, avatar and sound settings, both timestamps the creation time (one clock reading stands for the two `new Date()` calls) |
| `Profile.XPRequiredForLevel` | lib/user-storage.ts:164-167 | the XP curve `150·L + 25·(L-1)²`: at least 150 per level from level 1 on; its differences, the level prices, are 125 + 50·L (`LevelCostFormula`) |
| `Profile.LevelCostFormula` | lib/user-storage.ts:164-167 | the price of level L → L+1, as the difference of two curve values, equals 125 + 50·L |
| `Profile.LevelCostIncreasing` | lib/user-storage.ts:164-167 | each level costs strictly more than the one before it |
| `Profile.LevelUp` | lib/user-storage.ts:120-129 | afterwards the XP in hand is below the next price; the level never drops; no level is gained iff the first price is not reached; with a gain, the XP in hand equals the remainder plus the first price plus the curve prices of the later levels passed, and the next price is the curve's |
| `Profile.RollOver` | lib/user-storage.ts:124-129 | the `while` loop terminates for every starting state, including a price of 0; its result equals `LevelUp`; the level rises by the number of iterations |
| `Profile.LevelUpRoundsSettle` | lib/user-storage.ts:120-129 | the loop as written, on a whole amount of XP, stops within xp + 2 rounds in the state `LevelUp` describes |
| `Profile.InfinityNeverSettles` | lib/user-storage.ts:124-129 | the loop as written, with `Infinity` XP in hand, is still running after any number of rounds, one level higher per round |
| `Profile.DoubleLevelUpExample` | lib/user-storage.ts:125-129 | 140 + 400 XP at level 1 with price 150 passes two levels and ends at level 3 with 165 of 275 |
| `Profile.DefaultFirstLevelCheaper` | lib/user-storage.ts:44 | the default profile asks 100 XP for level 1 → 2, while the curve price is 175 |
| `Profile.UnlockedLevels` | lib/user-storage.ts:169-178 | always contains tier 1; a tier in 1..6 is present iff the level reaches its threshold (2, 4, 7, 10, 15 for tiers 2..6); the list is strictly ascending |
| `Profile.UnlockedLevelsMonotone` | lib/user-storage.ts:169-178 | a higher level never closes a tier |
| `Profile.Earned` | lib/user-storage.ts:193-215 | a name is earned iff it is one of the eight achievement names and its condition holds |
| `Profile.CheckAchievements` | lib/user-storage.ts:180-218 | the result holds exactly the prior names plus the qualifying ones; it has no duplicates; a duplicate-free prior list survives as its prefix |
| `Profile.CheckAchievementsIdempotent` | lib/user-storage.ts:180-218 | checking twice with the same stats is the same as checking once |
| `Profile.CheckAchievementsMonotone` | lib/user-storage.ts:191-217 | more prior achievements never give fewer achievements |
| `Profile.AccuracyExpertNeverRevoked` | lib/user-storage.ts:191-200 | an achievement already held survives stats that no longer qualify for it |
| `Profile.PrependCapped` | lib/user-storage.ts:107 | the new result is first, the length is min(old + 1, 50), and the rest are the old first entries in order |
| `Profile.RunningMean` | lib/user-storage.ts:112-115 | the new average is (avg·n + x)/(n + 1) rounded to the nearest integer, halves up; it lies between the old average and the new sample; the first sample becomes the average; an equal sample leaves it unchanged |
| `Profile.RoundedMeanUnique` | lib/user-storage.ts:112-115 | the rounding law of the running mean holds for exactly one value |
| `Profile.RunningMeanExample` | lib/user-storage.ts:112-115 | a test at 100 after one at 0 averages to 50; a test at 99 after two averaging 90 gives 93 |
| `Profile.ApplyTestResult` | lib/user-storage.ts:106-158 | history as in `PrependCapped`; the test count rises by 1, time typed by the test's time, best WPM becomes the max; both averages are the rounded running means of `RunningMean`, and so bounded by the old average and the new value; total XP rises by exactly the XP earned; the level-up law of `LevelUp`; tiers become old ∪ unlocked with no duplicate; no achievement is lost, and the new list holds exactly the old names plus those the updated statistics and the new result qualify for; id, username, avatar, createdAt, lastActive and sound settings are unchanged |
| `Profile.ApplyAllHistory` | lib/user-storage.ts:107 | after any run of tests, the history is the 50 newest results, newest first, followed by whatever of the old history still fits |
| `Profile.HistoryAfter51Tests` | lib/user-storage.ts:107 | after 51 tests from an empty history, 50 results are kept, the newest is first, and the very first result is gone |
| `Profile.ApplyAllMonotone` | lib/user-storage.ts:119-142 | over any run of tests, the level and total XP never drop, the test count rises by the number of tests, and no tier or achievement is lost |
| `Profile.MergeLaws` | lib/user-storage.ts:70 | `{...base, ...u}`: merging no fields keeps the base, merging a whole profile yields that profile, and merging the same update twice is merging it once |
| `Profile.MergeFieldwise` | lib/user-storage.ts:92 | for each of the 18 fields, a field missing from the update comes from the base and a present field comes from the update; a present `soundSettings` replaces the whole object |
| `Profile.GetUserProfile` | lib/user-storage.ts:62-77 | with nothing stored the default; otherwise the stored fields spread over the default ones, so an older profile missing some fields gets the default for exactly those (field by field as `MergeFieldwise` states); an empty object gives the default and a full profile comes back as stored |
| `Profile.SaveUserProfile` | lib/user-storage.ts:79-88 | the saved value carries the save time in `lastActive` and is otherwise the profile given |
| `Profile.SaveLoadRoundTrip` | lib/user-storage.ts:62-88 | loading what was saved gives back the saved profile, whatever the default |
| `Profile.UpdateUserProfile` | lib/user-storage.ts:90-95 | the result is the loaded profile merged with the update, stamped with the save time; in particular a present `username`, `avatar` or `level` wins and a missing one keeps the loaded value, and an empty update only restamps |
| `Profile.AddTestResult` | lib/user-storage.ts:97-162 | on the loaded profile: total XP rises by the XP earned, the test count by one, the level never drops, the XP in hand is below the next price, the newest history entry has the new id, and id and createdAt are kept |
| `Profile.ResetUserProfile` | lib/user-storage.ts:220-224 | exactly the default profile with the new id, stamped by the save with the save time; so 100 XP to the next level and the default creation time, like every other default field |
| `SmartText.ErrorAt` | lib/smart-text-generator.ts:305-311 | the record holds the expected character; its context is exactly the text from max(0, i-2) up to min(len, i+3): min(i, 2) characters before the expected one, the character itself and min(len-1-i, 2) after it, so 1 to 5 characters with the expected one at offset min(i, 2) |
| `SmartText.MismatchesBelow` | lib/smart-text-generator.ts:302-303 | exactly the indices below n at which the texts differ, strictly increasing |
| `SmartText.TrackTypingErrors` | lib/smart-text-generator.ts:298-317 | one record per index below both lengths at which the texts differ, in increasing order; identical texts give no records |
| `SmartText.StoreTypingErrors` | lib/smart-text-generator.ts:329-334 | the stored list is the last min(old + new, 100) entries of old ++ new; when at most 100 errors are new, all of them survive at the end |
| `SmartText.CharTable` | lib/smart-text-generator.ts:79-93 | one entry per distinct character; its count is the number of errors for that character and is positive; its contexts are the first five usable contexts recorded for it; every error's character has an entry; the counts sum to the number of errors |
| `SmartText.PairKeys` | lib/smart-text-generator.ts:96-104 | an error counts two pairs iff its context has at least 3 characters and the first occurrence of its character is strictly inside it, and otherwise none; the pairs are previous+char and char+next |
| `SmartText.PairKeysExample` | lib/smart-text-generator.ts:96-104 | an error at `b` in the context "abc" counts the pairs "ab" and "bc"; an error at `a`, first in its context, counts none |
| `SmartText.PairTable` | lib/smart-text-generator.ts:105-113 | one entry per distinct pair; its count is the number of times the pair was counted and is positive; the counts sum to the number of pairs counted |
| `SmartText.ObjectOrderIsInsertionOrder` | lib/smart-text-generator.ts:119 | when no key is a digit, `Object.values` returns the entries in insertion order |
| `SmartText.ProblemChars` | lib/smart-text-generator.ts:119-123 | at most 10 entries, min(table size, 10) exactly, a sub-multiset of the table (so distinct characters when the table's are), in non-increasing count order, and no entry left out has a higher count than one kept |
| `SmartText.ProblemPairs` | lib/smart-text-generator.ts:120-124 | the same as `ProblemChars`, for the pair table: a sub-multiset, distinct pairs when the table's are |
| `SmartText.AnalyzeErrors` | lib/smart-text-generator.ts:74-126 | the two lists are the top ten of the character and pair tables of the errors; any error at all yields a problem character; no character and no pair is listed twice |
| `SmartText.Templates` | lib/smart-text-generator.ts:19-55 | each category has five templates, listed in table order |
| `SmartText.LevelCategory` | lib/smart-text-generator.ts:266-272 | basic iff level ≤ 2, technical iff level = 5, common otherwise; punctuation and numbers are never chosen, because their branches are unreachable |
| `SmartText.TargetedCategory` | lib/smart-text-generator.ts:168-174 | basic iff level ≤ 2 or level ≥ 6, common iff level is 3 or 4, technical iff level = 5; never punctuation or numbers |
| `SmartText.CategoriesAgreeUpToFive` | lib/smart-text-generator.ts:168-174 | the two category chains agree exactly on the levels up to 5 |
| `SmartText.NumTemplates` | lib/smart-text-generator.ts:278 | between 1 and 3; 1 iff level ≤ 3, 3 iff level ≥ 6, otherwise floor(level/2) |
| `SmartText.NumTemplatesMonotone` | lib/smart-text-generator.ts:278 | a higher level never combines fewer templates |
| `Base.FirstDistinct` | lib/smart-text-generator.ts:282-287 | the loop adds each draw unless already kept and stops once n are kept or the draws run out; what it keeps is `new Set` of the draws it used, never more than n, and it was still short of n before the last draw it used |
| `Base.FromSeqPrefixFirst` | lib/smart-text-generator.ts:282-287 | stopping at a prefix that holds n distinct draws, or at the end, keeps exactly the first n distinct draws of the whole sequence, and falls short exactly when the whole sequence has fewer than n |
| `SmartText.SelectTemplates` | lib/smart-text-generator.ts:279-287 | a selection exists iff the draws name at least n distinct templates; it is the first n distinct templates drawn, pairwise distinct and all from the category; the loop stops at the draw that completes it |
| `SmartText.TopChars` | lib/smart-text-generator.ts:164 | the characters of the first min(len, 5) problem characters, in order |
| `SmartText.TopPairs` | lib/smart-text-generator.ts:165 | the pairs of the first min(len, 3) problem pairs, in order |
| `SmartText.SmartPlan` | lib/smart-text-generator.ts:134-153 | level-based iff there are no errors; the level-based plan uses the level category and template count; the targeted plan uses the targeted category, 1 to 5 characters and at most 3 pairs taken from the analysis |
| `SmartText.GenerateSmartText` | lib/smart-text-generator.ts:134-187 | without errors: a text exists iff the draws name enough distinct templates, and it is those templates joined by spaces; with errors: the first drawn template of the targeted category, a space, and the custom sentence |
| `Scoring.TrimStart` | components/typing-test.tsx:143 | the result is a suffix of the input; everything dropped is white space; the result does not start with white space |
| `Scoring.TrimEnd` | components/typing-test.tsx:143 | the result is a prefix of the input; everything dropped is white space; the result does not end with white space |
| `Scoring.TokensRunsBalance` | components/typing-test.tsx:143 | words and white-space runs alternate, so their counts differ only by the two ends |
| `Scoring.WordCount` | components/typing-test.tsx:143 | `inputText.trim().split(/\s+/).length`: at least 1, and exactly 1 when nothing but white space was typed; `WordCountIsTokens` pins it to the number of words |
| `Scoring.WordCountIsTokens` | components/typing-test.tsx:143 | `trim().split(/\s+/).length` is the number of words, or 1 when the input is empty or blank |
| `Scoring.BlankCountsAsOneWord` | components/typing-test.tsx:143 | "" and " " count as one word, and "a b" counts as two |
| `Scoring.Wpm` | components/typing-test.tsx:141-144 | the integer nearest to words per minute, halves rounded up: t·2r ≤ 2·words·60000 + t < t·(2r+2) for t elapsed milliseconds |
| `Scoring.WpmMonotone` | components/typing-test.tsx:144 | more words in the same time never give a lower WPM |
| `Scoring.WpmExample` | components/typing-test.tsx:141-144 | one word in 6 seconds is 10 WPM |
| `Scoring.CorrectChars` | components/typing-test.tsx:150-157 | the number of correct positions is at most the input length |
| `Scoring.CorrectPlusMismatches` | components/typing-test.tsx:155-165 | every position both texts have is counted once, either as correct or as a mismatch |
| `Scoring.Accuracy` | components/typing-test.tsx:167 | a percentage in [0, 100]; empty input gives 0; an exact copy of a non-empty reference gives 100 |
| `Scoring.AccuracyMeaning` | components/typing-test.tsx:167 | for non-empty input, the accuracy is the integer nearest to 100 · correct / typed length |
| `Scoring.AccuracyExamples` | components/typing-test.tsx:155-167 | "cats" against "cat" gives 75, since the overtyped character counts as wrong; "cut" against "cat" gives 67; "cat" against "cat" gives 100 |
| `Scoring.InlineErrors` | components/typing-test.tsx:150-165 | the correct count is `CorrectChars`; the records are exactly those of `trackTypingErrors`; correct + records = min(typed, reference), so overtyped positions produce neither |
| `Scoring.InlineMatchesTracker` | components/typing-test.tsx:155-165 | the inline error list equals `trackTypingErrors` on every input |
| `Scoring.RecordErrors` | components/typing-test.tsx:170-172 | nothing is stored when there are no errors; otherwise the list is capped as in `storeTypingErrors` and the new errors survive at the end |
| `Scoring.BaseXP` | components/typing-test.tsx:175 | between 50 and 500; 50 for any level outside 1..6 |
| `Scoring.BaseXPIncreasing` | components/typing-test.tsx:175 | a higher tier has a strictly higher base |
| `Scoring.XpReward` | components/typing-test.tsx:175-178 | at least the tier base, which is at least 50; exactly the base when WPM ≤ 30 and accuracy ≤ 80 |
| `Scoring.XpRewardRates` | components/typing-test.tsx:175-178 | each word per minute above 30 adds 2 XP and each accuracy point above 80 adds 1; below those thresholds one more adds nothing |
| `Scoring.XpRewardMonotone` | components/typing-test.tsx:175-178 | a higher WPM or accuracy never earns less XP |
| `Scoring.XpRewardExample` | components/typing-test.tsx:175-178 | 40 WPM at 100% on tier 1 earns 90; tier 7 falls back to base 50 |
| `Scoring.TimeLimit` | components/typing-test.tsx:75-78 | between 30 and 120 seconds; 30 for any level outside 1..6 |
| `Scoring.TimeLimitMonotone` | components/typing-test.tsx:75-78 | a higher tier never gets less time |
| `Scoring.TimeSpentSeconds` | components/typing-test.tsx:190 | the elapsed milliseconds rounded to the nearest second, halves up |
| `Scoring.ScoreTest` | components/typing-test.tsx:140-192 | WPM from the word count, accuracy in [0, 100], XP from the reward rule, the error records of `trackTypingErrors`, and a forwarded result with these values, the rounded seconds and the reference length |
| `Scoring.CompletionIsPerfect` | components/typing-test.tsx:210-213 | input that completes the test (equal to a non-empty reference) scores 100% and records no error |
| `Scoring.ZeroElapsedNeverSettles` | components/typing-test.tsx:141-178 | with 0 ms elapsed the XP as written is `Infinity`, and the level-up loop it is fed to never stops |
| `Scoring.ElapsedTimeSettles` | components/typing-test.tsx:141-178 | with time elapsed the XP as written is the whole number `XpReward` gives, and the loop stops in the state `LevelUp` describes |
| `Scoring.ScoreOnCompletingKeystroke` | components/typing-test.tsx:198-213 | on the keystroke that makes the input equal to the reference, the score is that of the input shown before the keystroke: its WPM, accuracy and errors; any other keystroke scores nothing |
| `Scoring.StaleInputOfLastKeystroke` | components/typing-test.tsx:198-213 | when that keystroke types the last character, the scored input is the reference minus it: 100% and no errors, but 0% for a one-character reference |
| `Scoring.ScoreCompletion` | components/typing-test.tsx:140-192 | scoring the completed input itself: WPM of the reference's words, 100% for a non-empty reference, no errors |

## Left out

- Rendering, React state and effects, navigation, the countdown timer, the popups and the mascot messages. These are UI.
- Sound playback (lib/use-sound.ts). It is a browser API.
- `localStorage`, `JSON.parse`/`JSON.stringify` and console logging. Storage appears only as the value it holds. A stored entry with wrongly typed fields is not modelled.
- `typeof window === "undefined"`: running outside a browser returns the default profile or does nothing. This is an environment check.
- The aliasing in `saveUserProfile`: it writes `lastActive` into the object it is given, which can be the shared default profile. The model treats profiles as values.
- `createCustomSentence`: its random word choices, word table and capitalisation. `GenerateSmartText` receives the finished sentence as a parameter.
- `levelTexts` and the character groups table. They are passage data that no modelled operation reads.
- Strings are sequences of Unicode scalar values. JavaScript indexes UTF-16 code units, so a character outside the Basic Multilingual Plane counts as one position here and as two there.
- SelectTemplates: when the draws run out before enough distinct templates are named, the result is `None`. The source would keep drawing forever, which the model represents only by this absence.
- Wpm: requires more than 0 elapsed milliseconds. With 0 the source's WPM and XP are `Infinity`, and the level-up loop of `addTestResult` never stops, so nothing is stored (see Findings). The `if (startTime)` guard of `handleTestComplete` is likewise taken to have passed.
- Wpm: computed with exact rational rounding. The source rounds floating-point quotients, which can differ at exact halves.
- Accuracy: computed as round(100·c/n) exactly. The source computes round((c/n)·100) in floating point, which can differ by one at halves (c = 29, n = 200 gives 14.499… there and 14.5 here).
- ProblemChars: does not state the order among entries with equal counts. The model defines that order (stable sort after `Object.values` order), but the contract leaves it unstated.
- ProblemPairs: does not state the order among entries with equal counts, for the same reason.
- Object keys: the table order puts canonical array-index keys (digit strings) first in ascending order, and other keys after them in insertion order. Symbol keys and prototype keys such as `__proto__` cannot arise from one- or two-character keys and are not modelled.
- CompletionIsPerfect: states the score of the completed input. The program scores the input of the previous render on the completing keystroke; `ScoreOnCompletingKeystroke` models that (see Findings).
- DefaultProfile: `createdAt` and `lastActive` are one `now` parameter, while the source reads the clock twice (`new Date()` for each); the two readings can differ by the time between them, which the model does not represent.

## Findings

| source | as written | input that shows it | evidently intended | confidence | as-written member | corrected member |
|---|---|---|---|---|---|---|
| components/typing-test.tsx:198-213 | `handleInputChange` calls `setInputText(newText)` and then `handleTestComplete()` in the same event; the latter reads `inputText` from the current render, which still holds the input from before the keystroke | reference "a", typed "a" in one keystroke: scored on "", accuracy 0% | score the completed input, which equals the reference: 100% | not executed; follows from React state semantics | `Scoring.ScoreOnCompletingKeystroke`, `Scoring.StaleInputOfLastKeystroke` | `Scoring.ScoreCompletion`, `Scoring.CompletionIsPerfect` |
| components/typing-test.tsx:141-144 with lib/user-storage.ts:121-129 | `wordsTyped / timeInMinutes` with no time elapsed is `Infinity`, so is the XP, and `while (newCurrentLevelXP >= newXpToNextLevel)` never stops, since `Infinity` minus a price is `Infinity` | a test completed in the same millisecond as it started (elapsed time 0) | no test earns unbounded XP; the level-up loop always stops | not executed; reachable only when completion falls in the starting millisecond | `Scoring.ZeroElapsedNeverSettles`, `Profile.InfinityNeverSettles` | `Scoring.ScoreTest` (elapsed time above 0), `Scoring.ElapsedTimeSettles`, `Profile.LevelUpRoundsSettle` |

=== FILE: base.dfy ===
/** Helpers shared by the whole model: an Option type, the JavaScript
    numeric operations the application relies on, the insertion-ordered
    set behind `Array.from(new Set(xs))`, and the stable sort behind
    `Array.prototype.sort`. */
module Base {

  datatype Option<T> = None | Some(value: T)

  function Max(a: int, b: int): int { if a >= b then a else b }

  function Min(a: int, b: int): int { if a <= b then a else b }

  /** `xs.slice(0, n)`: at most the first `n` elements. */
  function Take<T>(xs: seq<T>, n: nat): (r: seq<T>)
    ensures |r| == Min(|xs|, n)
    ensures forall i :: 0 <= i < |r| ==> r[i] == xs[i]
  {
    if |xs| <= n then xs else xs[..n]
  }

  // ---------------------------------------------------------------------
  // Math.round of a ratio
  // ---------------------------------------------------------------------

  /** `Math.round(a / b)` for a non-negative numerator and a positive
      denominator: the integer nearest to a/b, with halves rounded up.
      The contract says exactly that: r - 1/2 <= a/b < r + 1/2. */
  function RoundDiv(a: nat, b: nat): (r: nat)
    requires b > 0
    ensures b * (2 * r) <= 2 * a + b < b * (2 * r + 2)
  {
    var r := (2 * a + b) / (2 * b);
    assert 2 * a + b == (2 * b) * r + (2 * a + b) % (2 * b);
    r
  }

  lemma MulLeftMono(b: nat, x: int, y: int)
    requires x <= y
    ensures b * x <= b * y
  {
  }

  lemma MulStrictCancel(b: nat, x: int, y: int)
    requires b > 0
    requires b * x < b * y
    ensures x < y
  {
  }

  /** A rounded ratio stays between any integer bounds of the ratio itself. */
  lemma RoundDivBetween(a: nat, b: nat, lo: nat, hi: nat)
    requires b > 0
    requires b * lo <= a <= b * hi
    ensures lo <= RoundDiv(a, b) <= hi
  {
    var r := RoundDiv(a, b);
    assert b * (2 * r) < b * (2 * hi + 2);
    MulStrictCancel(b, 2 * r, 2 * hi + 2);
    assert b * (2 * lo) < b * (2 * r + 2);
    MulStrictCancel(b, 2 * lo, 2 * r + 2);
  }

  /** Rounding a ratio is monotone in the numerator. */
  lemma RoundDivMono(a: nat, a': nat, b: nat)
    requires b > 0
    requires a <= a'
    ensures RoundDiv(a, b) <= RoundDiv(a', b)
  {
    var r, r' := RoundDiv(a, b), RoundDiv(a', b);
    assert b * (2 * r) < b * (2 * r' + 2);
    MulStrictCancel(b, 2 * r, 2 * r' + 2);
  }

  // ---------------------------------------------------------------------
  // Insertion-ordered sets: `new Set(xs)`, `set.add(x)`, `Array.from(set)`
  // ---------------------------------------------------------------------

  predicate NoDuplicates<T(==)>(xs: seq<T>) {
    forall i, j :: 0 <= i < j < |xs| ==> xs[i] != xs[j]
  }

  /** `set.add(x)` on a set listed in insertion order. */
  function Add<T(==)>(s: seq<T>, x: T): seq<T> {
    if x in s then s else s + [x]
  }

  /** Adds the elements of `xs` one after another. */
  function AddAll<T(==,!new)>(s: seq<T>, xs: seq<T>): (r: seq<T>)
    ensures forall x :: x in r <==> x in s || x in xs
    ensures NoDuplicates(s) ==> NoDuplicates(r)
    ensures |s| <= |r| <= |s| + |xs|
    ensures r[..|s|] == s
    decreases |xs|
  {
    if xs == [] then s
    else
      var s' := Add(s, xs[0]);
      assert s'[..|s|] == s;
      var r := AddAll(s', xs[1..]);
      assert r[..|s|] == r[..|s'|][..|s|];
      assert forall x :: x in xs <==> x == xs[0] || x in xs[1..];
      r
  }

  /** A non-empty list is its front followed by its last element. */
  lemma SnocSplit<T>(xs: seq<T>)
    requires |xs| > 0
    ensures xs == xs[..|xs| - 1] + [xs[|xs| - 1]]
  {
  }

  /** `Array.from(new Set(xs))`: the distinct elements of `xs`, each at the
      position of its first occurrence. */
  function FromSeq<T(==,!new)>(xs: seq<T>): (r: seq<T>)
    ensures forall x :: x in r <==> x in xs
    ensures NoDuplicates(r)
    ensures |r| <= |xs|
  {
    AddAll([], xs)
  }

  /** One more element of `xs` extends the distinct elements of the prefix
      before it by `Set.add`. */
  lemma FromSeqPrefixStep<T(!new)>(xs: seq<T>, i: nat)
    requires i < |xs|
    ensures FromSeq(xs[..i + 1]) == Add(FromSeq(xs[..i]), xs[i])
  {
    assert xs[..i + 1] == xs[..i] + [xs[i]];
    AddAllAppend([], xs[..i], [xs[i]]);
    assert [xs[i]][1..] == [];
  }

  /** Stopping after the prefix `xs[..i]` once it holds `n` distinct
      elements, or at the end of `xs`, keeps exactly the first `n` distinct
      elements of `xs` whenever there are that many. */
  lemma FromSeqPrefixFirst<T(!new)>(xs: seq<T>, i: nat, n: nat)
    requires i <= |xs|
    requires |FromSeq(xs[..i])| <= n
    requires |FromSeq(xs[..i])| < n ==> i == |xs|
    ensures |FromSeq(xs[..i])| < n <==> |FromSeq(xs)| < n
    ensures |FromSeq(xs[..i])| == n ==> FromSeq(xs[..i]) == Take(FromSeq(xs), n)
  {
    var acc := FromSeq(xs[..i]);
    assert xs[..i] + xs[i..] == xs;
    AddAllAppend([], xs[..i], xs[i..]);
    var all := AddAll(acc, xs[i..]);
    if |acc| == n && |all| <= n {
      assert all == all[..n];
    }
  }

  /** Runs through `xs` adding each element to a set until it holds `n`
      elements or `xs` runs out, and reports how many elements it used. */
  method FirstDistinct<T(==,!new)>(xs: seq<T>, n: nat) returns (acc: seq<T>, i: nat)
    ensures i <= |xs|
    ensures acc == FromSeq(xs[..i])
    ensures |acc| <= n
    ensures |acc| < n ==> i == |xs|
    ensures 0 < i ==> |FromSeq(xs[..i - 1])| < n
  {
    acc, i := [], 0;
    assert xs[..0] == [];
    while |acc| < n && i < |xs|
      invariant KeptSoFar(xs, n, acc, i)
      decreases |xs| - i
    {
      KeepOneMore(xs, n, acc, i);
      acc := Add(acc, xs[i]);
      i := i + 1;
    }
  }

  /** The state of `FirstDistinct` after `i` elements: `acc` is the set of
      them, it is not over-full, and it was still short before the last. */
  ghost predicate KeptSoFar<T(!new)>(xs: seq<T>, n: nat, acc: seq<T>, i: nat) {
    && i <= |xs|
    && acc == FromSeq(xs[..i])
    && |acc| <= n
    && (0 < i ==> |FromSeq(xs[..i - 1])| < n)
  }

  /** One step of `FirstDistinct` keeps its state. */
  lemma KeepOneMore<T(!new)>(xs: seq<T>, n: nat, acc: seq<T>, i: nat)
    requires KeptSoFar(xs, n, acc, i)
    requires |acc| < n && i < |xs|
    ensures KeptSoFar(xs, n, Add(acc, xs[i]), i + 1)
  {
    FromSeqPrefixStep(xs, i);
  }

  /** Adding elements that are all present already changes nothing. */
  lemma {:induction false} AddAllPresent<T(!new)>(s: seq<T>, xs: seq<T>)
    requires forall x :: x in xs ==> x in s
    ensures AddAll(s, xs) == s
    decreases |xs|
  {
    if xs != [] {
      assert xs[0] in xs;
      assert Add(s, xs[0]) == s;
      assert forall x :: x in xs[1..] ==> x in xs;
      AddAllPresent(s, xs[1..]);
    }
  }

  /** Adding `xs ++ ys` is adding `xs`, then `ys`. */
  lemma {:induction false} AddAllAppend<T(!new)>(s: seq<T>, xs: seq<T>, ys: seq<T>)
    ensures AddAll(s, xs + ys) == AddAll(AddAll(s, xs), ys)
    decreases |xs|
  {
    if xs == [] {
      assert xs + ys == ys;
    } else {
      assert (xs + ys)[0] == xs[0];
      assert (xs + ys)[1..] == xs[1..] + ys;
      AddAllAppend(Add(s, xs[0]), xs[1..], ys);
    }
  }

  /** A list without duplicates goes through a Set unchanged. */
  lemma {:induction false} AddAllDistinct<T(!new)>(s: seq<T>, xs: seq<T>)
    requires NoDuplicates(s + xs)
    ensures AddAll(s, xs) == s + xs
    decreases |xs|
  {
    if xs != [] {
      assert (s + xs)[|s|] == xs[0];
      assert xs[0] !in s by {
        forall i | 0 <= i < |s| ensures s[i] != xs[0] {
          assert (s + xs)[i] == s[i];
        }
      }
      assert Add(s, xs[0]) + xs[1..] == s + xs;
      AddAllDistinct(Add(s, xs[0]), xs[1..]);
    }
  }

  /** `Array.from(new Set([...a, ...b]))`: the union of two lists. Every
      element of either list is kept, no element appears twice, and a
      duplicate-free `a` survives as a prefix in its original order. */
  function Union<T(==,!new)>(a: seq<T>, b: seq<T>): (r: seq<T>)
    ensures forall x :: x in r <==> x in a || x in b
    ensures NoDuplicates(r)
    ensures |r| <= |a| + |b|
    ensures NoDuplicates(a) ==> |a| <= |r| && r[..|a|] == a
  {
    FromSeqKeepsPrefix(a, b);
    FromSeq(a + b)
  }

  lemma FromSeqKeepsPrefix<T(!new)>(a: seq<T>, b: seq<T>)
    ensures NoDuplicates(a) ==> |a| <= |FromSeq(a + b)| && FromSeq(a + b)[..|a|] == a
  {
    if NoDuplicates(a) {
      AddAllAppend([], a, b);
      assert [] + a == a;
      AddAllDistinct([], a);
      assert AddAll([], a) == a;
      var r := AddAll(a, b);
      assert r[..|a|] == a;
      assert FromSeq(a + b) == r;
    }
  }

  /** Joining the same list a second time adds nothing. */
  lemma UnionIdempotent<T(!new)>(a: seq<T>, b: seq<T>)
    ensures Union(Union(a, b), b) == Union(a, b)
  {
    var u := Union(a, b);
    AddAllAppend([], u, b);
    assert [] + u == u;
    AddAllDistinct([], u);
    AddAllPresent(u, b);
  }

  // ---------------------------------------------------------------------
  // Stable sorting by an integer key
  // ---------------------------------------------------------------------

  predicate SortedBy<T>(xs: seq<T>, key: T -> int) {
    forall i, j :: 0 <= i < j < |xs| ==> key(xs[i]) <= key(xs[j])
  }

  /** Inserts `x` in front of the first element whose key is not smaller,
      so `x` precedes every element of equal key. */
  function InsertBy<T>(x: T, xs: seq<T>, key: T -> int): (r: seq<T>)
    requires SortedBy(xs, key)
    ensures |r| == |xs| + 1
    ensures forall j :: 0 <= j < |r| ==> r[j] == x || r[j] in xs
    ensures SortedBy(r, key)
    ensures multiset(r) == multiset(xs) + multiset{x}
  {
    if xs == [] || key(x) <= key(xs[0]) then
      SortedCons(x, xs, key);
      [x] + xs
    else
      var rest := InsertBy(x, xs[1..], key);
      BelowInserted(x, xs, key, rest);
      SortedCons(xs[0], rest, key);
      assert xs == [xs[0]] + xs[1..];
      [xs[0]] + rest
  }

  /** A head no greater than a sorted tail keeps the list sorted. */
  lemma SortedCons<T>(h: T, t: seq<T>, key: T -> int)
    requires SortedBy(t, key)
    requires forall j :: 0 <= j < |t| ==> key(h) <= key(t[j])
    ensures SortedBy([h] + t, key)
  {
    var r := [h] + t;
    forall i, j | 0 <= i < j < |r| ensures key(r[i]) <= key(r[j]) {
      assert r[j] == t[j - 1];
      if i > 0 {
        assert r[i] == t[i - 1];
      }
    }
  }

  /** The head of a sorted list is no greater than anything inserted after it. */
  lemma BelowInserted<T>(x: T, xs: seq<T>, key: T -> int, rest: seq<T>)
    requires SortedBy(xs, key) && |xs| > 0 && key(xs[0]) < key(x)
    requires forall j :: 0 <= j < |rest| ==> rest[j] == x || rest[j] in xs[1..]
    ensures forall j :: 0 <= j < |rest| ==> key(xs[0]) <= key(rest[j])
  {
    forall j | 0 <= j < |rest| ensures key(xs[0]) <= key(rest[j]) {
      if rest[j] != x {
        var m :| 0 <= m < |xs[1..]| && xs[1..][m] == rest[j];
        assert xs[1..][m] == xs[m + 1];
      }
    }
  }

  /** `xs.sort(comparator)` with a comparator that orders by `key` ascending:
      a stable insertion sort. */
  function SortBy<T>(xs: seq<T>, key: T -> int): (r: seq<T>)
    ensures SortedBy(r, key)
    ensures multiset(r) == multiset(xs)
    ensures |r| == |xs|
  {
    if xs == [] then []
    else
      assert xs == [xs[0]] + xs[1..];
      InsertBy(xs[0], SortBy(xs[1..], key), key)
  }

  /** The elements of `xs` whose key is `k`, in order. */
  function WithKey<T>(xs: seq<T>, key: T -> int, k: int): (r: seq<T>)
    ensures |r| <= |xs|
  {
    if xs == [] then []
    else (if key(xs[0]) == k then [xs[0]] else []) + WithKey(xs[1..], key, k)
  }

  lemma WithKeyCons<T>(h: T, t: seq<T>, key: T -> int, k: int)
    ensures WithKey([h] + t, key, k) == (if key(h) == k then [h] else []) + WithKey(t, key, k)
  {
    assert ([h] + t)[0] == h && ([h] + t)[1..] == t;
  }

  lemma {:induction false} InsertByStable<T>(x: T, xs: seq<T>, key: T -> int, k: int)
    requires SortedBy(xs, key)
    ensures WithKey(InsertBy(x, xs, key), key, k)
         == (if key(x) == k then [x] else []) + WithKey(xs, key, k)
    decreases |xs|
  {
    if xs == [] || key(x) <= key(xs[0]) {
      WithKeyCons(x, xs, key, k);
    } else {
      var rest := InsertBy(x, xs[1..], key);
      assert InsertBy(x, xs, key) == [xs[0]] + rest;
      assert xs == [xs[0]] + xs[1..];
      WithKeyCons(xs[0], rest, key, k);
      WithKeyCons(xs[0], xs[1..], key, k);
      InsertByStable(x, xs[1..], key, k);
      var tail := WithKey(xs[1..], key, k);
      if key(x) == k {
        assert key(xs[0]) != k;
        assert WithKey(InsertBy(x, xs, key), key, k) == WithKey(rest, key, k) == [x] + tail;
        assert WithKey(xs, key, k) == tail;
      } else {
        assert WithKey(rest, key, k) == tail;
      }
    }
  }

  /** The sort is stable: elements of equal key keep their relative order. */
  lemma {:induction false} SortByStable<T>(xs: seq<T>, key: T -> int, k: int)
    ensures WithKey(SortBy(xs, key), key, k) == WithKey(xs, key, k)
    decreases |xs|
  {
    if xs != [] {
      SortByStable(xs[1..], key, k);
      InsertByStable(xs[0], SortBy(xs[1..], key), key, k);
    }
  }

  /** The first `n` elements of `xs` once sorted by `key` (a stable sort):
      a sorted selection from `xs` that outranks everything it leaves out. */
  function TopBy<T(!new)>(xs: seq<T>, key: T -> int, n: nat): (r: seq<T>)
    ensures |r| == Min(|xs|, n)
    ensures SortedBy(r, key)
    ensures forall x :: x in r ==> x in xs
    ensures multiset(r) <= multiset(xs)
    ensures forall x :: x in xs && x !in r ==> forall k :: 0 <= k < |r| ==> key(r[k]) <= key(x)
  {
    var sorted := SortBy(xs, key);
    TopOfSorted(sorted, key, n);
    SameElements(sorted, xs);
    TakeSubMultiset(sorted, n);
    Take(sorted, n)
  }

  /** A prefix takes no element more often than the whole list holds it. */
  lemma TakeSubMultiset<T>(s: seq<T>, n: nat)
    ensures multiset(Take(s, n)) <= multiset(s)
  {
    var t := Take(s, n);
    assert s == t + s[|t|..];
    assert multiset(s) == multiset(t) + multiset(s[|t|..]);
  }

  /** In a list without duplicates every element occurs at most once. */
  lemma {:induction false} NoDuplicatesCount<T>(s: seq<T>, x: T)
    requires NoDuplicates(s)
    ensures multiset(s)[x] <= 1
    decreases |s|
  {
    if s != [] {
      assert s == [s[0]] + s[1..];
      assert NoDuplicates(s[1..]) by {
        forall i, j | 0 <= i < j < |s[1..]| ensures s[1..][i] != s[1..][j] {
          assert s[1..][i] == s[i + 1] && s[1..][j] == s[j + 1];
        }
      }
      NoDuplicatesCount(s[1..], x);
      if x == s[0] {
        assert x !in s[1..] by {
          forall i | 0 <= i < |s[1..]| ensures s[1..][i] != x {
            assert s[1..][i] == s[i + 1];
          }
        }
      }
    }
  }

  /** An element at two positions occurs at least twice. */
  lemma TwoPositionsCount<T>(s: seq<T>, i: nat, j: nat)
    requires i < j < |s| && s[i] == s[j]
    ensures multiset(s)[s[i]] >= 2
  {
    var a, b := s[..j], s[j..];
    assert s == a + b;
    assert a[i] == s[i] && b[0] == s[j];
    assert multiset(a)[s[i]] >= 1 && multiset(b)[s[i]] >= 1;
  }

  /** Keys that are distinct over a list stay distinct over any sub-multiset
      of it. */
  lemma DistinctKeysSub<T, K>(r: seq<T>, xs: seq<T>, f: T -> K)
    requires multiset(r) <= multiset(xs)
    requires forall k, l :: 0 <= k < l < |xs| ==> f(xs[k]) != f(xs[l])
    ensures forall i, j :: 0 <= i < j < |r| ==> f(r[i]) != f(r[j])
  {
    forall i, j | 0 <= i < j < |r| ensures f(r[i]) != f(r[j]) {
      if f(r[i]) == f(r[j]) {
        assert r[i] in multiset(xs) && r[j] in multiset(xs);
        var k :| 0 <= k < |xs| && xs[k] == r[i];
        var l :| 0 <= l < |xs| && xs[l] == r[j];
        assert k == l;
        assert NoDuplicates(xs);
        TwoPositionsCount(r, i, j);
        NoDuplicatesCount(xs, r[i]);
      }
    }
  }

  lemma SameElements<T(!new)>(a: seq<T>, b: seq<T>)
    requires multiset(a) == multiset(b)
    ensures forall x :: x in a <==> x in b
  {
    forall x ensures x in a <==> x in b {
      assert x in a <==> x in multiset(a);
      assert x in b <==> x in multiset(b);
    }
  }

  /** A list whose every element has key `k` is its own `WithKey(.., k)`. */
  lemma {:induction false} WithKeyAll<T>(xs: seq<T>, key: T -> int, k: int)
    requires forall i :: 0 <= i < |xs| ==> key(xs[i]) == k
    ensures WithKey(xs, key, k) == xs
    decreases |xs|
  {
    if xs != [] {
      WithKeyAll(xs[1..], key, k);
    }
  }

  /** Cutting a sorted list keeps its order, and everything cut away ranks
      no lower than what is kept. */
  lemma TopOfSorted<T>(xs: seq<T>, key: T -> int, n: nat)
    requires SortedBy(xs, key)
    ensures SortedBy(Take(xs, n), key)
    ensures forall x :: x in xs && x !in Take(xs, n) ==>
              forall k :: 0 <= k < |Take(xs, n)| ==> key(Take(xs, n)[k]) <= key(x)
  {
    var t := Take(xs, n);
    forall x | x in xs && x !in t
      ensures forall k :: 0 <= k < |t| ==> key(t[k]) <= key(x)
    {
      var j :| 0 <= j < |xs| && xs[j] == x;
      assert j >= |t|;
    }
  }
}

=== FILE: profile.dfy ===
/** The progression engine of lib/user-storage.ts: the user profile, the
    XP curve, tier unlocks, achievements, the shallow merges used when a
    profile is loaded or updated, and `addTestResult`, which folds one
    finished typing test into the profile.

    Identifiers (`crypto.randomUUID()`) and timestamps
    (`new Date().toISOString()`) are parameters. The browser storage itself
    is represented by the value it holds: `None` for a missing or unreadable
    entry, or the parsed fields. */
module Profile {
  import opened Base

  datatype TestResult = TestResult(
    id: string,
    level: int,
    wpm: nat,
    accuracy: nat,
    xpEarned: nat,
    timeSpent: nat,
    completedAt: string,
    textLength: nat)

  /** The argument of `addTestResult`: a result without its id and time. */
  datatype TestInput = TestInput(
    level: int,
    wpm: nat,
    accuracy: nat,
    xpEarned: nat,
    timeSpent: nat,
    textLength: nat)

  datatype SoundSettings = SoundSettings(enabled: bool, volume: real)

  datatype UserProfile = UserProfile(
    id: string,
    username: string,
    avatar: string,
    level: nat,
    totalXP: nat,
    xpToNextLevel: nat,
    currentLevelXP: nat,
    averageWPM: nat,
    bestWPM: nat,
    averageAccuracy: nat,
    totalTests: nat,
    totalTimeTyped: nat,
    achievements: seq<string>,
    unlockedLevels: seq<int>,
    testHistory: seq<TestResult>,
    createdAt: string,
    lastActive: string,
    soundSettings: SoundSettings)

  /** Number of results kept in `testHistory`. */
  const HistoryCap: nat := 50

  /** The profile every new user starts from; `id` and `now` are the values
      generated when the module is loaded. */
  function DefaultProfile(id: string, now: string): (p: UserProfile)
    ensures p.level == 1 && p.totalXP == 0 && p.currentLevelXP == 0
    ensures p.unlockedLevels == [1] && p.achievements == [] && p.testHistory == []
    ensures p.totalTests == 0 && p.id == id
    ensures p.xpToNextLevel == 100 && p.totalTimeTyped == 0
    ensures p.averageWPM == 0 && p.bestWPM == 0 && p.averageAccuracy == 0
    ensures p.username == "TypeMaster" && p.avatar == "\U{1F431}"
    ensures p.createdAt == now && p.lastActive == now
    ensures p.soundSettings == SoundSettings(true, 0.3)
  {
    UserProfile(
      id := id,
      username := "TypeMaster",
      avatar := "\U{1F431}",
      level := 1,
      totalXP := 0,
      xpToNextLevel := 100,
      currentLevelXP := 0,
      averageWPM := 0,
      bestWPM := 0,
      averageAccuracy := 0,
      totalTests := 0,
      totalTimeTyped := 0,
      achievements := [],
      unlockedLevels := [1],
      testHistory := [],
      createdAt := now,
      lastActive := now,
      soundSettings := SoundSettings(true, 0.3))
  }

  // ---------------------------------------------------------------------
  // XP curve
  // ---------------------------------------------------------------------

  /** `getXPRequiredForLevel`: 150 per level plus 25 times the square of
      the levels past the first, so at least 150 per level; the price of
      each level, a difference of two of these, is `LevelCostFormula`. */
  function XPRequiredForLevel(level: int): (r: int)
    ensures level >= 1 ==> r >= 150 * level
  {
    level * 150 + (level - 1) * (level - 1) * 25
  }

  /** The XP cost of going from `level` to `level + 1`, computed as the
      source does, as a difference of two curve values. */
  function LevelCost(level: int): int {
    XPRequiredForLevel(level + 1) - XPRequiredForLevel(level)
  }

  lemma LevelCostFormula(level: int)
    ensures LevelCost(level) == 125 + 50 * level
  {
  }

  /** Each level costs strictly more than the one before. */
  lemma LevelCostIncreasing(a: int, b: int)
    requires a < b
    ensures LevelCost(a) < LevelCost(b)
  {
    LevelCostFormula(a);
    LevelCostFormula(b);
  }

  /** The total cost of the levels lo, lo+1, ..., hi-1. */
  function CostSum(lo: int, hi: int): int
    decreases hi - lo
  {
    if hi <= lo then 0 else LevelCost(lo) + CostSum(lo + 1, hi)
  }

  /** The state the level-up loop works on. */
  datatype LevelState = LevelState(level: nat, currentLevelXP: nat, xpToNextLevel: nat)

  /** With at least one level gained, the XP in hand `xp` equals what is left
      plus the first price `toNext` plus the curve's price of every later
      level passed, and the next price is the curve's. */
  predicate GainAccounted(level: nat, xp: nat, toNext: nat, r: LevelState) {
    r.level > level ==>
      r.xpToNextLevel == LevelCost(r.level) &&
      xp == r.currentLevelXP + toNext + CostSum(level + 1, r.level)
  }

  /** The level-up loop of `addTestResult`, as a recursive function: while
      the XP in hand pays for the next level, pay for it and move up.
      The contract is the conservation law: when at least one level is
      gained, the XP in hand equals what is left plus the first price
      (`toNext`, whatever the profile held) plus the curve's price of every
      later level passed. What is left is always below the next price, and
      no level is gained exactly when the first price is not reached. */
  function LevelUp(level: nat, xp: nat, toNext: nat): (r: LevelState)
    ensures r.currentLevelXP < r.xpToNextLevel
    ensures r.level >= level
    ensures r.level == level <==> xp < toNext
    ensures r.level == level ==> r == LevelState(level, xp, toNext)
    ensures GainAccounted(level, xp, toNext, r)
    decreases xp, if toNext == 0 then 1 else 0
  {
    if xp < toNext then LevelState(level, xp, toNext)
    else
      LevelCostFormula(level + 1);
      LevelUp(level + 1, xp - toNext, LevelCost(level + 1))
  }

  /** The loop itself, `while (newCurrentLevelXP >= newXpToNextLevel)`;
      it terminates for every starting state, including a stored
      `xpToNextLevel` of 0, which forces one level-up. */
  method RollOver(level: nat, xp: nat, toNext: nat) returns (r: LevelState, iterations: nat)
    ensures r == LevelUp(level, xp, toNext)
    ensures r.level == level + iterations
  {
    var l: nat, c: nat, t: nat := level, xp, toNext;
    iterations := 0;
    while c >= t
      invariant LevelUp(l, c, t) == LevelUp(level, xp, toNext)
      invariant l == level + iterations
      decreases c, if t == 0 then 1 else 0
    {
      c := c - t;
      l := l + 1;
      LevelCostFormula(l);
      t := XPRequiredForLevel(l + 1) - XPRequiredForLevel(l);
      iterations := iterations + 1;
    }
    r := LevelState(l, c, t);
  }

  // ---------------------------------------------------------------------
  // The level-up loop on JavaScript numbers
  // ---------------------------------------------------------------------

  /** A non-negative amount as a JavaScript number holds it here: a whole
      number or `Infinity`. */
  datatype Amount = Whole(value: nat) | Infinity

  /** `a + b`. */
  function AmountPlus(a: Amount, b: Amount): Amount {
    if a.Infinity? || b.Infinity? then Infinity else Whole(a.value + b.value)
  }

  /** `a >= c`. */
  predicate AmountAtLeast(a: Amount, c: nat) {
    a.Infinity? || a.value >= c
  }

  /** `a - c` where `a >= c`; `Infinity - c` is `Infinity`. */
  function AmountMinus(a: Amount, c: nat): Amount
    requires AmountAtLeast(a, c)
  {
    if a.Infinity? then Infinity else Whole(a.value - c)
  }

  /** The variables of the level-up loop, with the XP in hand a number. */
  datatype LoopState = LoopState(level: nat, xp: Amount, toNext: nat)

  /** At most `k` rounds of the level-up loop, as written, on a number that
      may be `Infinity`; the loop stops early once the XP in hand is below
      the price. */
  function LevelUpRounds(s: LoopState, k: nat): LoopState
    decreases k
  {
    if k == 0 || !AmountAtLeast(s.xp, s.toNext) then s
    else
      LevelCostFormula(s.level + 1);
      LevelUpRounds(LoopState(s.level + 1, AmountMinus(s.xp, s.toNext), LevelCost(s.level + 1)), k - 1)
  }

  /** On a whole amount the loop settles within `xp + 2` rounds, in the
      state `LevelUp` describes. */
  lemma {:induction false} LevelUpRoundsSettle(level: nat, xp: nat, toNext: nat, k: nat)
    requires k >= xp + (if toNext == 0 then 2 else 1)
    ensures var r := LevelUp(level, xp, toNext);
            LevelUpRounds(LoopState(level, Whole(xp), toNext), k)
              == LoopState(r.level, Whole(r.currentLevelXP), r.xpToNextLevel)
    decreases xp, if toNext == 0 then 1 else 0
  {
    if xp >= toNext {
      LevelCostFormula(level + 1);
      LevelUpRoundsSettle(level + 1, xp - toNext, LevelCost(level + 1), k - 1);
    }
  }

  /** With `Infinity` in hand the loop never settles: after any number of
      rounds the level has risen by that number and the loop goes on. */
  lemma {:induction false} InfinityNeverSettles(s: LoopState, k: nat)
    requires s.xp == Infinity
    ensures LevelUpRounds(s, k).level == s.level + k
    ensures LevelUpRounds(s, k).xp == Infinity
    ensures AmountAtLeast(LevelUpRounds(s, k).xp, LevelUpRounds(s, k).toNext)
    decreases k
  {
    if k > 0 {
      LevelCostFormula(s.level + 1);
      InfinityNeverSettles(LoopState(s.level + 1, Infinity, LevelCost(s.level + 1)), k - 1);
    }
  }

  /** The example of a double level-up: 140 XP in hand towards a price of
      150, then 400 more. */
  lemma DoubleLevelUpExample()
    ensures LevelUp(1, 140 + 400, 150) == LevelState(3, 165, 275)
  {
    LevelCostFormula(2);
    LevelCostFormula(3);
    assert LevelUp(3, 165, 275) == LevelState(3, 165, 275);
    assert LevelUp(2, 390, 225) == LevelUp(3, 165, 275);
  }

  /** The starting profile's first level is cheaper than the curve says:
      it asks 100 XP, while the curve would charge 175. */
  lemma DefaultFirstLevelCheaper(id: string, now: string)
    ensures DefaultProfile(id, now).xpToNextLevel == 100
    ensures LevelCost(1) == 175
  {
  }

  // ---------------------------------------------------------------------
  // Tier unlocks
  // ---------------------------------------------------------------------

  /** Number of challenge tiers. */
  const TierCount: nat := 6

  /** The profile level at which a tier opens (tier 1 is always open). */
  function UnlockThreshold(tier: int): nat {
    if tier == 2 then 2
    else if tier == 3 then 4
    else if tier == 4 then 7
    else if tier == 5 then 10
    else if tier == 6 then 15
    else 0
  }

  /** `getUnlockedLevels`: the tiers open at a profile level, in ascending
      order. */
  function UnlockedLevels(level: nat): (r: seq<int>)
    ensures 1 in r
    ensures forall t :: t in r <==> 1 <= t <= TierCount && UnlockThreshold(t) <= level
    ensures forall i, j :: 0 <= i < j < |r| ==> r[i] < r[j]
  {
    [1]
    + (if level >= 2 then [2] else [])
    + (if level >= 4 then [3] else [])
    + (if level >= 7 then [4] else [])
    + (if level >= 10 then [5] else [])
    + (if level >= 15 then [6] else [])
  }

  /** A higher level never closes a tier. */
  lemma UnlockedLevelsMonotone(a: nat, b: nat)
    requires a <= b
    ensures forall t :: t in UnlockedLevels(a) ==> t in UnlockedLevels(b)
  {
  }

  // ---------------------------------------------------------------------
  // Achievements
  // ---------------------------------------------------------------------

  /** The second argument of `checkAchievements`. */
  datatype AchievementStats = AchievementStats(
    totalTests: nat,
    bestWPM: nat,
    averageAccuracy: nat,
    totalTimeTyped: nat,
    level: nat,
    testResult: TestResult)

  /** The achievement names, in the order they are checked. */
  const AchievementNames: seq<string> := [
    "First Steps", "Speed Demon", "Accuracy Expert", "Consistent Typer",
    "Marathon Typer", "Perfectionist", "Level Master", "Speed Racer"]

  /** The condition under which an achievement is granted. */
  predicate Qualifies(name: string, s: AchievementStats) {
    if name == "First Steps" then s.totalTests >= 1
    else if name == "Speed Demon" then s.bestWPM >= 50
    else if name == "Accuracy Expert" then s.averageAccuracy >= 95
    else if name == "Consistent Typer" then s.totalTests >= 10
    else if name == "Marathon Typer" then s.totalTimeTyped >= 3600
    else if name == "Perfectionist" then s.testResult.accuracy == 100
    else if name == "Level Master" then s.level >= 5
    else if name == "Speed Racer" then s.bestWPM >= 80
    else false
  }

  /** The names in `names` the stats qualify for, in order. */
  function Earned(names: seq<string>, s: AchievementStats): (r: seq<string>)
    ensures forall a :: a in r <==> a in names && Qualifies(a, s)
  {
    if names == [] then []
    else (if Qualifies(names[0], s) then [names[0]] else []) + Earned(names[1..], s)
  }

  /** `checkAchievements`: the prior achievements (as a Set, so without
      duplicates) followed by every newly qualifying name. Nothing is ever
      taken away, whatever the stats. */
  function CheckAchievements(prior: seq<string>, s: AchievementStats): (r: seq<string>)
    ensures forall a :: a in r <==> a in prior || (a in AchievementNames && Qualifies(a, s))
    ensures NoDuplicates(r)
    ensures NoDuplicates(prior) ==> |prior| <= |r| && r[..|prior|] == prior
  {
    Union(prior, Earned(AchievementNames, s))
  }

  /** Checking twice with the same stats is checking once. */
  lemma CheckAchievementsIdempotent(prior: seq<string>, s: AchievementStats)
    ensures CheckAchievements(CheckAchievements(prior, s), s) == CheckAchievements(prior, s)
  {
    UnionIdempotent(prior, Earned(AchievementNames, s));
  }

  /** More prior achievements give (as a set) more achievements. */
  lemma CheckAchievementsMonotone(p1: seq<string>, p2: seq<string>, s: AchievementStats)
    requires forall a :: a in p1 ==> a in p2
    ensures forall a :: a in CheckAchievements(p1, s) ==> a in CheckAchievements(p2, s)
  {
  }

  /** Once granted, "Accuracy Expert" survives a test whose accuracy is poor. */
  lemma AccuracyExpertNeverRevoked(prior: seq<string>, s: AchievementStats)
    requires "Accuracy Expert" in prior
    requires s.averageAccuracy < 95 && s.testResult.accuracy == 10
    ensures "Accuracy Expert" in CheckAchievements(prior, s)
  {
  }

  // ---------------------------------------------------------------------
  // addTestResult
  // ---------------------------------------------------------------------

  /** `[newTestResult, ...history].slice(0, 50)`. */
  function PrependCapped(r: TestResult, h: seq<TestResult>): (h': seq<TestResult>)
    ensures |h'| == Min(|h| + 1, HistoryCap)
    ensures h'[0] == r
    ensures h'[1..] == h[..|h'| - 1]
  {
    var all := [r] + h;
    assert all[1..] == h;
    Take(all, HistoryCap)
  }

  /** `r` is `(avg * n + x) / (n + 1)` rounded to the nearest integer,
      halves up: the mean of n samples averaging `avg` and one more, `x`. */
  predicate RoundedMean(avg: nat, n: nat, x: nat, r: nat) {
    (n + 1) * (2 * r) <= 2 * (avg * n + x) + (n + 1) < (n + 1) * (2 * r + 2)
  }

  /** `Math.round((avg * n + x) / (n + 1))`: the running mean after one
      more sample. It lies between the old mean and the new sample, and
      the first sample is its own mean. */
  function RunningMean(avg: nat, n: nat, x: nat): (r: nat)
    ensures RoundedMean(avg, n, x, r)
    ensures Min(avg, x) <= r <= Max(avg, x)
    ensures n == 0 ==> r == x
    ensures avg == x ==> r == x
  {
    var lo, hi := Min(avg, x), Max(avg, x);
    WeightedSumBetween(avg, n, x);
    RoundDivBetween(avg * n + x, n + 1, lo, hi);
    RoundDiv(avg * n + x, n + 1)
  }

  /** The rounding law pins the mean down: one value meets it. */
  lemma RoundedMeanUnique(avg: nat, n: nat, x: nat, r1: nat, r2: nat)
    requires RoundedMean(avg, n, x, r1) && RoundedMean(avg, n, x, r2)
    ensures r1 == r2
  {
    MulStrictCancel(n + 1, 2 * r1, 2 * r2 + 2);
    MulStrictCancel(n + 1, 2 * r2, 2 * r1 + 2);
  }

  /** One test at 100 after one at 0 averages to 50, not to either sample. */
  lemma RunningMeanExample()
    ensures RunningMean(0, 1, 100) == 50
    ensures RunningMean(90, 2, 99) == 93
  {
    assert RoundedMean(0, 1, 100, 50);
    RoundedMeanUnique(0, 1, 100, RunningMean(0, 1, 100), 50);
    assert RoundedMean(90, 2, 99, 93);
    RoundedMeanUnique(90, 2, 99, RunningMean(90, 2, 99), 93);
  }

  lemma WeightedSumBetween(avg: nat, n: nat, x: nat)
    ensures (n + 1) * Min(avg, x) <= avg * n + x <= (n + 1) * Max(avg, x)
  {
    assert avg * n == n * avg;
    if avg <= x {
      MulLeftMono(n, avg, x);
      assert (n + 1) * avg == n * avg + avg;
      assert (n + 1) * x == n * x + x;
    } else {
      MulLeftMono(n, x, avg);
      assert (n + 1) * avg == n * avg + avg;
      assert (n + 1) * x == n * x + x;
    }
  }

  /** The statistics of a profile with its newest result, as
      `checkAchievements` reads them. */
  function StatsOf(q: UserProfile): AchievementStats
    requires |q.testHistory| > 0
  {
    AchievementStats(q.totalTests, q.bestWPM, q.averageAccuracy, q.totalTimeTyped, q.level, q.testHistory[0])
  }

  /** The pure part of `addTestResult`: the profile after one finished test,
      before it is saved. `resultId` and `completedAt` are the generated id
      and timestamp of the new history entry. */
  function ApplyTestResult(p: UserProfile, t: TestInput, resultId: string, completedAt: string): (q: UserProfile)
    // history
    ensures |q.testHistory| == Min(|p.testHistory| + 1, HistoryCap)
    ensures q.testHistory[0] == TestResult(resultId, t.level, t.wpm, t.accuracy, t.xpEarned, t.timeSpent, completedAt, t.textLength)
    ensures q.testHistory[1..] == p.testHistory[..|q.testHistory| - 1]
    // statistics
    ensures q.totalTests == p.totalTests + 1
    ensures q.totalTimeTyped == p.totalTimeTyped + t.timeSpent
    ensures q.bestWPM == Max(p.bestWPM, t.wpm)
    ensures Min(p.averageWPM, t.wpm) <= q.averageWPM <= Max(p.averageWPM, t.wpm)
    ensures Min(p.averageAccuracy, t.accuracy) <= q.averageAccuracy <= Max(p.averageAccuracy, t.accuracy)
    ensures RoundedMean(p.averageWPM, p.totalTests, t.wpm, q.averageWPM)
    ensures RoundedMean(p.averageAccuracy, p.totalTests, t.accuracy, q.averageAccuracy)
    ensures p.totalTests == 0 ==> q.averageWPM == t.wpm && q.averageAccuracy == t.accuracy
    // XP and levels
    ensures q.totalXP == p.totalXP + t.xpEarned
    ensures q.currentLevelXP < q.xpToNextLevel
    ensures q.level >= p.level
    ensures q.level == p.level <==> p.currentLevelXP + t.xpEarned < p.xpToNextLevel
    ensures q.level == p.level ==>
              q.currentLevelXP == p.currentLevelXP + t.xpEarned && q.xpToNextLevel == p.xpToNextLevel
    ensures GainAccounted(p.level, p.currentLevelXP + t.xpEarned, p.xpToNextLevel,
                          LevelState(q.level, q.currentLevelXP, q.xpToNextLevel))
    // unlocks and achievements only grow
    ensures forall u :: u in q.unlockedLevels <==> u in p.unlockedLevels || u in UnlockedLevels(q.level)
    ensures NoDuplicates(q.unlockedLevels)
    ensures forall a :: a in p.achievements ==> a in q.achievements
    ensures forall a :: a in q.achievements ==> a in p.achievements || a in AchievementNames
    ensures forall a :: a in q.achievements <==>
              a in p.achievements || (a in AchievementNames && Qualifies(a, StatsOf(q)))
    // nothing else changes
    ensures q.id == p.id && q.username == p.username && q.avatar == p.avatar
    ensures q.createdAt == p.createdAt && q.lastActive == p.lastActive
    ensures q.soundSettings == p.soundSettings
  {
    var result := TestResult(resultId, t.level, t.wpm, t.accuracy, t.xpEarned, t.timeSpent, completedAt, t.textLength);
    var totalTests := p.totalTests + 1;
    var totalTimeTyped := p.totalTimeTyped + t.timeSpent;
    var averageWPM := RunningMean(p.averageWPM, p.totalTests, t.wpm);
    var averageAccuracy := RunningMean(p.averageAccuracy, p.totalTests, t.accuracy);
    var bestWPM := Max(p.bestWPM, t.wpm);
    var progress := LevelUp(p.level, p.currentLevelXP + t.xpEarned, p.xpToNextLevel);
    var stats := AchievementStats(totalTests, bestWPM, averageAccuracy, totalTimeTyped, progress.level, result);
    var q := p.(
      level := progress.level,
      totalXP := p.totalXP + t.xpEarned,
      xpToNextLevel := progress.xpToNextLevel,
      currentLevelXP := progress.currentLevelXP,
      averageWPM := averageWPM,
      bestWPM := bestWPM,
      averageAccuracy := averageAccuracy,
      totalTests := totalTests,
      totalTimeTyped := totalTimeTyped,
      achievements := CheckAchievements(p.achievements, stats),
      unlockedLevels := Union(p.unlockedLevels, UnlockedLevels(progress.level)),
      testHistory := PrependCapped(result, p.testHistory));
    assert LevelState(q.level, q.currentLevelXP, q.xpToNextLevel) == progress;
    assert StatsOf(q) == stats;
    q
  }

  // ---------------------------------------------------------------------
  // Sequences of tests
  // ---------------------------------------------------------------------

  /** One completed test as `addTestResult` sees it. */
  datatype Completion = Completion(input: TestInput, resultId: string, completedAt: string)

  function ResultOf(c: Completion): TestResult {
    TestResult(c.resultId, c.input.level, c.input.wpm, c.input.accuracy, c.input.xpEarned,
               c.input.timeSpent, c.completedAt, c.input.textLength)
  }

  /** The profile after the completions, oldest first. */
  function ApplyAll(p: UserProfile, cs: seq<Completion>): UserProfile
    decreases |cs|
  {
    if cs == [] then p
    else
      var last := cs[|cs| - 1];
      ApplyTestResult(ApplyAll(p, cs[..|cs| - 1]), last.input, last.resultId, last.completedAt)
  }

  /** The results of the completions, newest first. */
  function NewestFirst(cs: seq<Completion>): (r: seq<TestResult>)
    ensures |r| == |cs|
    ensures forall i :: 0 <= i < |cs| ==> r[i] == ResultOf(cs[|cs| - 1 - i])
  {
    if cs == [] then [] else [ResultOf(cs[|cs| - 1])] + NewestFirst(cs[..|cs| - 1])
  }

  /** Fifty-one tests from an empty history: the newest result is first,
      fifty are kept, and the very first result is gone. */
  lemma HistoryAfter51Tests(p: UserProfile, cs: seq<Completion>)
    requires p.testHistory == [] && |cs| == 51
    requires forall i, j :: 0 <= i < j < |cs| ==> cs[i].resultId != cs[j].resultId
    ensures |ApplyAll(p, cs).testHistory| == 50
    ensures ApplyAll(p, cs).testHistory[0] == ResultOf(cs[50])
    ensures ResultOf(cs[0]) !in ApplyAll(p, cs).testHistory
  {
    ApplyAllHistory(p, cs);
    assert NewestFirst(cs) + p.testHistory == NewestFirst(cs);
    NewestFiftyOfFiftyOne(cs);
  }

  lemma NewestFiftyOfFiftyOne(cs: seq<Completion>)
    requires |cs| == 51
    requires forall i, j :: 0 <= i < j < |cs| ==> cs[i].resultId != cs[j].resultId
    ensures var h := Take(NewestFirst(cs), HistoryCap);
            |h| == 50 && h[0] == ResultOf(cs[50]) && ResultOf(cs[0]) !in h
  {
    var h := Take(NewestFirst(cs), HistoryCap);
    forall i | 0 <= i < |h|
      ensures h[i] != ResultOf(cs[0])
    {
      assert h[i] == ResultOf(cs[50 - i]);
      assert cs[50 - i].resultId != cs[0].resultId;
    }
  }

  lemma TakeTakePrepend(x: TestResult, s: seq<TestResult>)
    ensures Take([x] + Take(s, HistoryCap), HistoryCap) == Take([x] + s, HistoryCap)
  {
  }

  /** After any run of tests the history is the newest 50 results, newest
      first, followed by what the old history had room for. */
  lemma {:induction false} ApplyAllHistory(p: UserProfile, cs: seq<Completion>)
    requires |p.testHistory| <= HistoryCap
    ensures ApplyAll(p, cs).testHistory == Take(NewestFirst(cs) + p.testHistory, HistoryCap)
    decreases |cs|
  {
    if cs == [] {
      assert NewestFirst(cs) + p.testHistory == p.testHistory;
    } else {
      var init := cs[..|cs| - 1];
      var last := cs[|cs| - 1];
      ApplyAllHistory(p, init);
      var h := ApplyAll(p, init).testHistory;
      assert h == Take(NewestFirst(init) + p.testHistory, HistoryCap);
      TakeTakePrepend(ResultOf(last), NewestFirst(init) + p.testHistory);
      assert NewestFirst(cs) + p.testHistory == [ResultOf(last)] + (NewestFirst(init) + p.testHistory);
    }
  }

  /** Over any run of tests the level, the total XP, the tier list and the
      achievement list only grow. */
  lemma {:induction false} ApplyAllMonotone(p: UserProfile, cs: seq<Completion>)
    ensures ApplyAll(p, cs).level >= p.level
    ensures ApplyAll(p, cs).totalXP >= p.totalXP
    ensures ApplyAll(p, cs).totalTests == p.totalTests + |cs|
    ensures forall u :: u in p.unlockedLevels ==> u in ApplyAll(p, cs).unlockedLevels
    ensures forall a :: a in p.achievements ==> a in ApplyAll(p, cs).achievements
    decreases |cs|
  {
    if cs != [] {
      ApplyAllMonotone(p, cs[..|cs| - 1]);
    }
  }

  // ---------------------------------------------------------------------
  // Loading, saving, updating and resetting
  // ---------------------------------------------------------------------

  /** A stored (or update) object: any subset of the profile's fields. */
  datatype PartialProfile = PartialProfile(
    id: Option<string>,
    username: Option<string>,
    avatar: Option<string>,
    level: Option<nat>,
    totalXP: Option<nat>,
    xpToNextLevel: Option<nat>,
    currentLevelXP: Option<nat>,
    averageWPM: Option<nat>,
    bestWPM: Option<nat>,
    averageAccuracy: Option<nat>,
    totalTests: Option<nat>,
    totalTimeTyped: Option<nat>,
    achievements: Option<seq<string>>,
    unlockedLevels: Option<seq<int>>,
    testHistory: Option<seq<TestResult>>,
    createdAt: Option<string>,
    lastActive: Option<string>,
    soundSettings: Option<SoundSettings>)

  const NoFields: PartialProfile :=
    PartialProfile(None, None, None, None, None, None, None, None, None,
                   None, None, None, None, None, None, None, None, None)

  function Pick<T>(o: Option<T>, d: T): T {
    if o.Some? then o.value else d
  }

  /** `{ ...base, ...u }`: every field present in `u` replaces the one in
      `base`; the merge is shallow, so a present `soundSettings` replaces
      both of its parts. */
  function Merge(base: UserProfile, u: PartialProfile): UserProfile {
    UserProfile(
      Pick(u.id, base.id), Pick(u.username, base.username), Pick(u.avatar, base.avatar),
      Pick(u.level, base.level), Pick(u.totalXP, base.totalXP),
      Pick(u.xpToNextLevel, base.xpToNextLevel), Pick(u.currentLevelXP, base.currentLevelXP),
      Pick(u.averageWPM, base.averageWPM), Pick(u.bestWPM, base.bestWPM),
      Pick(u.averageAccuracy, base.averageAccuracy), Pick(u.totalTests, base.totalTests),
      Pick(u.totalTimeTyped, base.totalTimeTyped), Pick(u.achievements, base.achievements),
      Pick(u.unlockedLevels, base.unlockedLevels), Pick(u.testHistory, base.testHistory),
      Pick(u.createdAt, base.createdAt), Pick(u.lastActive, base.lastActive),
      Pick(u.soundSettings, base.soundSettings))
  }

  /** The object `JSON.stringify` writes for a profile: every field. */
  function AllFields(p: UserProfile): PartialProfile {
    PartialProfile(
      Some(p.id), Some(p.username), Some(p.avatar), Some(p.level), Some(p.totalXP),
      Some(p.xpToNextLevel), Some(p.currentLevelXP), Some(p.averageWPM), Some(p.bestWPM),
      Some(p.averageAccuracy), Some(p.totalTests), Some(p.totalTimeTyped),
      Some(p.achievements), Some(p.unlockedLevels), Some(p.testHistory),
      Some(p.createdAt), Some(p.lastActive), Some(p.soundSettings))
  }

  /** Merging nothing keeps the base; merging a whole profile yields it;
      merging the same update twice is merging it once. */
  lemma MergeLaws(base: UserProfile, u: PartialProfile, q: UserProfile)
    ensures Merge(base, NoFields) == base
    ensures Merge(base, AllFields(q)) == q
    ensures Merge(Merge(base, u), u) == Merge(base, u)
  {
  }

  /** `v` is what a spread leaves in a field: the update's value when the
      update has the field, the base's value when it does not. */
  ghost predicate Overrides<T>(update: Option<T>, base: T, v: T) {
    (update.Some? ==> v == update.value) && (update.None? ==> v == base)
  }

  /** Field by field, a present field comes from the update and a missing
      one from the base; a present `soundSettings` replaces both its parts. */
  lemma MergeFieldwise(base: UserProfile, u: PartialProfile, m: UserProfile)
    requires m == Merge(base, u)
    ensures Overrides(u.id, base.id, m.id)
    ensures Overrides(u.username, base.username, m.username)
    ensures Overrides(u.avatar, base.avatar, m.avatar)
    ensures Overrides(u.level, base.level, m.level)
    ensures Overrides(u.totalXP, base.totalXP, m.totalXP)
    ensures Overrides(u.xpToNextLevel, base.xpToNextLevel, m.xpToNextLevel)
    ensures Overrides(u.currentLevelXP, base.currentLevelXP, m.currentLevelXP)
    ensures Overrides(u.averageWPM, base.averageWPM, m.averageWPM)
    ensures Overrides(u.bestWPM, base.bestWPM, m.bestWPM)
    ensures Overrides(u.averageAccuracy, base.averageAccuracy, m.averageAccuracy)
    ensures Overrides(u.totalTests, base.totalTests, m.totalTests)
    ensures Overrides(u.totalTimeTyped, base.totalTimeTyped, m.totalTimeTyped)
    ensures Overrides(u.achievements, base.achievements, m.achievements)
    ensures Overrides(u.unlockedLevels, base.unlockedLevels, m.unlockedLevels)
    ensures Overrides(u.testHistory, base.testHistory, m.testHistory)
    ensures Overrides(u.createdAt, base.createdAt, m.createdAt)
    ensures Overrides(u.lastActive, base.lastActive, m.lastActive)
    ensures Overrides(u.soundSettings, base.soundSettings, m.soundSettings)
  {
  }

  /** `getUserProfile`: the default when nothing (or nothing readable) is
      stored, otherwise the stored fields over the default ones. */
  function GetUserProfile(stored: Option<PartialProfile>, default: UserProfile): (p: UserProfile)
    ensures stored.None? ==> p == default
    ensures stored == Some(NoFields) ==> p == default
    ensures forall q :: stored == Some(AllFields(q)) ==> p == q
    ensures stored.Some? ==> p == Merge(default, stored.value)
  {
    match stored
    case None => default
    case Some(fields) => Merge(default, fields)
  }

  /** `saveUserProfile`: stamps `lastActive` before writing; the value is
      what gets stored. */
  function SaveUserProfile(p: UserProfile, now: string): (q: UserProfile)
    ensures q.lastActive == now
    ensures q.(lastActive := p.lastActive) == p
  {
    p.(lastActive := now)
  }

  /** Saving and loading again gives back the saved profile, whatever the
      default: only `lastActive` differs from the profile handed to save. */
  lemma SaveLoadRoundTrip(p: UserProfile, now: string, default: UserProfile)
    ensures GetUserProfile(Some(AllFields(SaveUserProfile(p, now))), default) == p.(lastActive := now)
  {
  }

  /** `updateUserProfile`: load, merge the updates, save. The result carries
      the save time even when the updates name a `lastActive` of their own. */
  function UpdateUserProfile(stored: Option<PartialProfile>, default: UserProfile,
                             updates: PartialProfile, now: string): (q: UserProfile)
    ensures q == Merge(GetUserProfile(stored, default), updates).(lastActive := now)
    ensures q.lastActive == now
    ensures Overrides(updates.username, GetUserProfile(stored, default).username, q.username)
    ensures Overrides(updates.avatar, GetUserProfile(stored, default).avatar, q.avatar)
    ensures Overrides(updates.level, GetUserProfile(stored, default).level, q.level)
    ensures updates == NoFields ==> q == GetUserProfile(stored, default).(lastActive := now)
  {
    SaveUserProfile(Merge(GetUserProfile(stored, default), updates), now)
  }

  /** `addTestResult`: load the stored profile, apply the result, save. */
  function AddTestResult(stored: Option<PartialProfile>, default: UserProfile, t: TestInput,
                         resultId: string, completedAt: string, now: string): (q: UserProfile)
    ensures var p := GetUserProfile(stored, default);
            q.totalXP == p.totalXP + t.xpEarned && q.totalTests == p.totalTests + 1 &&
            q.level >= p.level && q.currentLevelXP < q.xpToNextLevel &&
            |q.testHistory| > 0 && q.testHistory[0].id == resultId && q.lastActive == now &&
            q.id == p.id && q.createdAt == p.createdAt
  {
    SaveUserProfile(ApplyTestResult(GetUserProfile(stored, default), t, resultId, completedAt), now)
  }

  /** `resetUserProfile`: the default profile with a fresh id, saved.
      `defaultId` and `loadTime` are the values the default was built with.
      The new id differs from the old one only as far as the id generator
      never repeats itself; `freshId` is whatever it returned. */
  function ResetUserProfile(defaultId: string, loadTime: string, freshId: string, now: string): (q: UserProfile)
    ensures q.level == 1 && q.totalXP == 0 && q.currentLevelXP == 0 && q.totalTests == 0
    ensures q.unlockedLevels == [1] && q.achievements == [] && q.testHistory == []
    ensures q.id == freshId && q.lastActive == now
    ensures q == DefaultProfile(defaultId, loadTime).(id := freshId, lastActive := now)
    ensures q.xpToNextLevel == 100 && q.createdAt == loadTime
  {
    SaveUserProfile(DefaultProfile(defaultId, loadTime).(id := freshId), now)
  }
}

=== FILE: scoring.dfy ===
/** The scoring arithmetic of `handleTestComplete` in
    components/typing-test.tsx: word count, words per minute, accuracy, the
    inline error list, the XP reward, the rounded time and the result handed
    to `addTestResult`; plus the tier time limits and the completion test.

    The clock is a parameter: `elapsedMs` is `Date.now() - startTime`. */
module Scoring {
  import opened Base
  import Profile
  import SmartText

  // ---------------------------------------------------------------------
  // Word count: inputText.trim().split(/\s+/).length
  // ---------------------------------------------------------------------

  /** The characters JavaScript's `\s` and `trim` treat as white space:
      the ECMAScript WhiteSpace and LineTerminator code points. */
  predicate IsSpace(c: char) {
    ('\U{9}' <= c <= '\U{D}') || c == ' ' || c == '\U{A0}' || c == '\U{1680}'
    || ('\U{2000}' <= c <= '\U{200A}') || c == '\U{2028}' || c == '\U{2029}'
    || c == '\U{202F}' || c == '\U{205F}' || c == '\U{3000}' || c == '\U{FEFF}'
  }

  predicate AllSpace(s: string) {
    forall i :: 0 <= i < |s| ==> IsSpace(s[i])
  }

  /** `trimStart`: drops the leading white space, nothing else. */
  function TrimStart(s: string): (r: string)
    ensures |r| <= |s| && r == s[|s| - |r|..]
    ensures AllSpace(s[..|s| - |r|])
    ensures r != [] ==> !IsSpace(r[0])
  {
    if s != [] && IsSpace(s[0]) then
      var r := TrimStart(s[1..]);
      assert s[..|s| - |r|] == [s[0]] + s[1..][..|s[1..]| - |r|];
      r
    else s
  }

  /** `trimEnd`: drops the trailing white space, nothing else. */
  function TrimEnd(s: string): (r: string)
    ensures |r| <= |s| && r == s[..|r|]
    ensures AllSpace(s[|r|..])
    ensures r != [] ==> !IsSpace(r[|r| - 1])
  {
    if s != [] && IsSpace(s[|s| - 1]) then
      var r := TrimEnd(s[..|s| - 1]);
      assert s[|r|..] == s[..|s| - 1][|r|..] + [s[|s| - 1]];
      r
    else s
  }

  /** `trim`: a slice of `s` with only white space around it, and none at
      either of its own ends. */
  function Trim(s: string): (r: string)
    ensures r == [] || (!IsSpace(r[0]) && !IsSpace(r[|r| - 1]))
    ensures |r| <= |s|
  {
    TrimEnd(TrimStart(s))
  }

  /** The maximal white-space runs of `s`, where `afterSpace` says whether
      the character before `s` was white space. */
  function RunsFrom(s: string, afterSpace: bool): nat {
    if s == [] then 0
    else (if IsSpace(s[0]) && !afterSpace then 1 else 0) + RunsFrom(s[1..], IsSpace(s[0]))
  }

  /** The maximal runs of other characters: the words. */
  function TokensFrom(s: string, afterSpace: bool): nat {
    if s == [] then 0
    else (if !IsSpace(s[0]) && afterSpace then 1 else 0) + TokensFrom(s[1..], IsSpace(s[0]))
  }

  /** The words of `s`. */
  function Tokens(s: string): nat {
    TokensFrom(s, true)
  }

  /** The number of pieces `s.split(/\s+/)` returns: one more than the
      number of white-space runs, since every run separates two pieces
      (possibly empty ones at the ends). */
  function SplitCount(s: string): nat {
    1 + RunsFrom(s, false)
  }

  /** `inputText.trim().split(/\s+/).length`: never 0, since splitting
      even an empty string yields one piece; `WordCountIsTokens` says which
      number it is. */
  function WordCount(s: string): (r: nat)
    ensures r >= 1
    ensures Trim(s) == [] ==> r == 1
  {
    SplitCount(Trim(s))
  }

  /** Whether the last character seen was white space. */
  function EndsInSpace(s: string, afterSpace: bool): bool {
    if s == [] then afterSpace else IsSpace(s[|s| - 1])
  }

  /** Words and white-space runs alternate, so their numbers differ only by
      what happens at the two ends. */
  lemma {:induction false} TokensRunsBalance(s: string, afterSpace: bool)
    ensures TokensFrom(s, afterSpace) + (if EndsInSpace(s, afterSpace) then 1 else 0)
         == RunsFrom(s, afterSpace) + (if afterSpace then 1 else 0)
  {
    if s != [] {
      TokensRunsBalance(s[1..], IsSpace(s[0]));
      assert EndsInSpace(s, afterSpace) == EndsInSpace(s[1..], IsSpace(s[0]));
    }
  }

  /** Leading white space holds no word. */
  lemma {:induction false} TokensTrimStart(s: string)
    ensures Tokens(TrimStart(s)) == Tokens(s)
  {
    if s != [] && IsSpace(s[0]) {
      TokensTrimStart(s[1..]);
    }
  }

  /** Appending one character starts a word exactly when it is not white
      space and follows white space. */
  lemma {:induction false} TokensSnoc(s: string, c: char, afterSpace: bool)
    ensures TokensFrom(s + [c], afterSpace)
         == TokensFrom(s, afterSpace) + (if !IsSpace(c) && EndsInSpace(s, afterSpace) then 1 else 0)
  {
    if s == [] {
      assert [c][1..] == [];
    } else {
      assert (s + [c])[1..] == s[1..] + [c];
      TokensSnoc(s[1..], c, IsSpace(s[0]));
      assert EndsInSpace(s, afterSpace) == EndsInSpace(s[1..], IsSpace(s[0]));
    }
  }

  /** Trailing white space holds no word. */
  lemma {:induction false} TokensTrimEnd(s: string, afterSpace: bool)
    ensures TokensFrom(TrimEnd(s), afterSpace) == TokensFrom(s, afterSpace)
    decreases |s|
  {
    if s != [] && IsSpace(s[|s| - 1]) {
      var init := s[..|s| - 1];
      assert s == init + [s[|s| - 1]];
      TokensSnoc(init, s[|s| - 1], afterSpace);
      TokensTrimEnd(init, afterSpace);
    }
  }

  /** A string that is all white space holds no word. */
  lemma {:induction false} NoTokensInSpace(s: string, afterSpace: bool)
    requires AllSpace(s)
    ensures TokensFrom(s, afterSpace) == 0
  {
    if s != [] {
      assert AllSpace(s[1..]) by {
        forall i | 0 <= i < |s[1..]| ensures IsSpace(s[1..][i]) { assert s[1..][i] == s[i + 1]; }
      }
      NoTokensInSpace(s[1..], IsSpace(s[0]));
    }
  }

  /** The word count is the number of words, except that empty or blank
      input still counts as one word. */
  lemma WordCountIsTokens(s: string)
    ensures WordCount(s) == Max(Tokens(s), 1)
  {
    var t := Trim(s);
    TokensTrimStart(s);
    TokensTrimEnd(TrimStart(s), true);
    assert Tokens(t) == Tokens(s);
    if t != [] {
      TokensRunsBalance(t[1..], false);
      assert EndsInSpace(t[1..], false) == false;
      assert TokensFrom(t, true) == 1 + TokensFrom(t[1..], false);
      assert RunsFrom(t, false) == RunsFrom(t[1..], false);
    } else {
      NoTokensInSpace([], true);
    }
  }

  lemma BlankCountsAsOneWord()
    ensures WordCount("") == 1
    ensures WordCount(" ") == 1
    ensures WordCount("a b") == 2
  {
    assert TrimStart(" ") == TrimStart(" "[1..]);
    assert TrimStart("a b") == "a b";
    assert TrimEnd("a b") == "a b";
    assert RunsFrom("a b", false) == RunsFrom(" b", false);
    assert RunsFrom(" b", false) == 1 + RunsFrom("b", true);
  }

  // ---------------------------------------------------------------------
  // Speed and accuracy
  // ---------------------------------------------------------------------

  /** `Math.round(words / (elapsedMs / 1000 / 60))`, computed exactly: the
      integer nearest to the words per minute, halves rounded up. */
  function Wpm(words: nat, elapsedMs: nat): (r: nat)
    requires elapsedMs > 0
    ensures elapsedMs * (2 * r) <= 2 * (words * 60000) + elapsedMs < elapsedMs * (2 * r + 2)
  {
    RoundDiv(words * 60000, elapsedMs)
  }

  /** More words in the same time is never slower. */
  lemma WpmMonotone(words: nat, words': nat, elapsedMs: nat)
    requires elapsedMs > 0 && words <= words'
    ensures Wpm(words, elapsedMs) <= Wpm(words', elapsedMs)
  {
    MulLeftMono(60000, words, words');
    RoundDivMono(words * 60000, words' * 60000, elapsedMs);
  }

  lemma WpmExample()
    ensures Wpm(1, 6000) == 10
    ensures Wpm(50, 60000) == 50
  {
  }

  /** The typed positions below `n` that hold the reference character. */
  function CorrectBelow(ref: string, typed: string, n: nat): (r: nat)
    requires n <= |typed|
    ensures r <= n
  {
    if n == 0 then 0
    else CorrectBelow(ref, typed, n - 1) + (if n - 1 < |ref| && typed[n - 1] == ref[n - 1] then 1 else 0)
  }

  /** `correctChars`: positions of the input that match the reference;
      positions past the end of the reference never do. */
  function CorrectChars(ref: string, typed: string): (r: nat)
    ensures r <= |typed|
  {
    CorrectBelow(ref, typed, |typed|)
  }

  /** One more position adds one mismatch exactly when the texts differ there. */
  lemma MismatchCountStep(ref: string, typed: string, n: nat)
    requires 0 < n <= |ref| && n <= |typed|
    ensures |SmartText.MismatchesBelow(ref, typed, n)|
         == |SmartText.MismatchesBelow(ref, typed, n - 1)| + (if ref[n - 1] != typed[n - 1] then 1 else 0)
  {
  }

  /** Every position both texts have is either correct or a mismatch. */
  lemma {:induction false} CorrectPlusMismatches(ref: string, typed: string, n: nat)
    requires n <= |typed|
    ensures CorrectBelow(ref, typed, n) + |SmartText.MismatchesBelow(ref, typed, Min(n, |ref|))| == Min(n, |ref|)
  {
    if n > 0 {
      CorrectPlusMismatches(ref, typed, n - 1);
      if n - 1 < |ref| {
        MismatchCountStep(ref, typed, n);
      }
    }
  }

  /** An input equal to the reference is correct at every position. */
  lemma {:induction false} AllCorrect(s: string, n: nat)
    requires n <= |s|
    ensures CorrectBelow(s, s, n) == n
  {
    if n > 0 {
      AllCorrect(s, n - 1);
    }
  }

  /** `Math.round(correctChars / max(typed, 1) * 100)`, computed exactly.
      It is a percentage; empty input scores 0 and an exact copy of a
      non-empty reference 100. */
  function Accuracy(ref: string, typed: string): (r: nat)
    ensures r <= 100
    ensures typed == [] ==> r == 0
    ensures typed == ref && ref != [] ==> r == 100
  {
    AccuracyBounds(ref, typed);
    RoundDiv(100 * CorrectChars(ref, typed), Max(|typed|, 1))
  }

  lemma AccuracyBounds(ref: string, typed: string)
    ensures RoundDiv(100 * CorrectChars(ref, typed), Max(|typed|, 1)) <= 100
    ensures typed == ref && ref != [] ==> RoundDiv(100 * CorrectChars(ref, typed), Max(|typed|, 1)) == 100
  {
    var n := Max(|typed|, 1);
    var c := CorrectChars(ref, typed);
    MulLeftMono(100, c, n);
    RoundDivBetween(100 * c, n, 0, 100);
    if typed == ref && ref != [] {
      AllCorrect(ref, |ref|);
      RoundDivBetween(100 * c, n, 100, 100);
    }
  }

  /** The accuracy is the rounded share of the input that is correct. */
  lemma AccuracyMeaning(ref: string, typed: string)
    requires typed != []
    ensures var r := Accuracy(ref, typed);
            |typed| * (2 * r) <= 200 * CorrectChars(ref, typed) + |typed| < |typed| * (2 * r + 2)
  {
  }

  /** Overtyped characters count against accuracy. */
  lemma AccuracyExamples()
    ensures Accuracy("cat", "cats") == 75
    ensures Accuracy("cat", "cat") == 100
    ensures Accuracy("cat", "cut") == 67
  {
    assert CorrectBelow("cat", "cats", 3) == 3 by {
      assert CorrectBelow("cat", "cats", 1) == 1;
      assert CorrectBelow("cat", "cats", 2) == 2;
    }
    assert CorrectChars("cat", "cats") == CorrectBelow("cat", "cats", 3);
    assert CorrectBelow("cat", "cut", 3) == 2 by {
      assert CorrectBelow("cat", "cut", 1) == 1;
      assert CorrectBelow("cat", "cut", 2) == 1;
    }
    assert CorrectBelow("cat", "cat", 3) == 3 by {
      assert CorrectBelow("cat", "cat", 1) == 1;
      assert CorrectBelow("cat", "cat", 2) == 2;
    }
  }

  // ---------------------------------------------------------------------
  // The inline error list
  // ---------------------------------------------------------------------

  /** The `typedChars.forEach` loop: counts the correct positions and
      records every position of the reference that the input got wrong.
      It computes exactly what `trackTypingErrors` computes, and positions
      past the reference are neither counted nor recorded. */
  method InlineErrors(ref: string, typed: string) returns (correct: nat, errors: seq<SmartText.TypingError>)
    ensures correct == CorrectChars(ref, typed)
    ensures errors == SmartText.ErrorsAt(ref, SmartText.Mismatches(ref, typed))
    ensures correct + |errors| == Min(|typed|, |ref|)
  {
    correct := 0;
    errors := [];
    var i := 0;
    while i < |typed|
      invariant 0 <= i <= |typed|
      invariant correct == CorrectBelow(ref, typed, i)
      invariant errors == RecordsBelow(ref, typed, i)
    {
      InlineStep(ref, typed, i);
      if i < |ref| && typed[i] == ref[i] {
        correct := correct + 1;
      } else if i < |ref| {
        errors := errors + [SmartText.ErrorAt(ref, i)];
      }
      i := i + 1;
    }
    CorrectPlusMismatches(ref, typed, |typed|);
  }

  /** The records of the mismatches below `Min(n, |ref|)`. */
  function RecordsBelow(ref: string, typed: string, n: nat): seq<SmartText.TypingError>
    requires n <= |typed|
  {
    SmartText.ErrorsAt(ref, SmartText.MismatchesBelow(ref, typed, Min(n, |ref|)))
  }

  /** One more typed position adds one to the correct count or one record,
      or, past the end of the reference, nothing. */
  lemma InlineStep(ref: string, typed: string, i: nat)
    requires i < |typed|
    ensures CorrectBelow(ref, typed, i + 1)
         == CorrectBelow(ref, typed, i) + (if i < |ref| && typed[i] == ref[i] then 1 else 0)
    ensures RecordsBelow(ref, typed, i + 1)
         == RecordsBelow(ref, typed, i) + (if i < |ref| && typed[i] != ref[i] then [SmartText.ErrorAt(ref, i)] else [])
  {
    if i < |ref| {
      assert Min(i + 1, |ref|) == i + 1 && Min(i, |ref|) == i;
      SmartText.ErrorsStep(ref, typed, i);
    } else {
      assert Min(i + 1, |ref|) == Min(i, |ref|);
    }
  }

  /** The inline list and `trackTypingErrors` agree on every input. */
  method InlineMatchesTracker(ref: string, typed: string)
    returns (inline: seq<SmartText.TypingError>, tracked: seq<SmartText.TypingError>)
    ensures inline == tracked
    ensures |inline| == |SmartText.Mismatches(ref, typed)|
  {
    var _, e := InlineErrors(ref, typed);
    inline := e;
    tracked := SmartText.TrackTypingErrors(ref, typed);
  }

  /** `if (errors.length > 0) storeTypingErrors(errors)`. */
  function RecordErrors(stored: seq<SmartText.TypingError>, errors: seq<SmartText.TypingError>): (r: seq<SmartText.TypingError>)
    ensures errors == [] ==> r == stored
    ensures errors != [] ==> |r| == Min(|stored| + |errors|, SmartText.StoredErrorCap)
    ensures errors != [] && |errors| <= SmartText.StoredErrorCap ==> r[|r| - |errors|..] == errors
    ensures |r| <= Max(|stored|, SmartText.StoredErrorCap)
  {
    if |errors| > 0 then SmartText.StoreTypingErrors(stored, errors) else stored
  }

  // ---------------------------------------------------------------------
  // XP, time and the forwarded result
  // ---------------------------------------------------------------------

  /** `[50, 100, 150, 200, 300, 500][level - 1] || 50`. */
  function BaseXP(level: int): (r: nat)
    ensures 50 <= r <= 500
    ensures !(1 <= level <= 6) ==> r == 50
  {
    if 1 <= level <= 6 then [50, 100, 150, 200, 300, 500][level - 1] else 50
  }

  /** Higher tiers pay more. */
  lemma BaseXPIncreasing(a: int, b: int)
    requires 1 <= a < b <= 6
    ensures BaseXP(a) < BaseXP(b)
  {
  }

  /** The XP reward: the tier's base plus two points per word per minute
      above 30 and one per accuracy point above 80. At least 50, and
      exactly the base when neither bonus applies. */
  function XpReward(level: int, wpm: int, accuracy: int): (r: nat)
    ensures r >= BaseXP(level) >= 50
    ensures wpm <= 30 && accuracy <= 80 ==> r == BaseXP(level)
  {
    BaseXP(level) + Max(0, wpm - 30) * 2 + Max(0, accuracy - 80) * 1
  }

  /** The bonus rates: above 30 WPM each further word per minute earns 2
      XP, and above 80% each further accuracy point earns 1. */
  lemma XpRewardRates(level: int, wpm: int, accuracy: int)
    ensures wpm >= 30 ==> XpReward(level, wpm + 1, accuracy) == XpReward(level, wpm, accuracy) + 2
    ensures accuracy >= 80 ==> XpReward(level, wpm, accuracy + 1) == XpReward(level, wpm, accuracy) + 1
    ensures wpm <= 29 ==> XpReward(level, wpm + 1, accuracy) == XpReward(level, wpm, accuracy)
    ensures accuracy <= 79 ==> XpReward(level, wpm, accuracy + 1) == XpReward(level, wpm, accuracy)
  {
  }

  /** Faster or more accurate never earns less. */
  lemma XpRewardMonotone(level: int, wpm: int, wpm': int, accuracy: int, accuracy': int)
    requires wpm <= wpm' && accuracy <= accuracy'
    ensures XpReward(level, wpm, accuracy) <= XpReward(level, wpm', accuracy')
  {
  }

  lemma XpRewardExample()
    ensures XpReward(1, 40, 100) == 90
    ensures XpReward(7, 100, 100) == 210
  {
  }

  /** `getTimeLimit`: seconds per tier; any other level gets 30. */
  function TimeLimit(level: int): (r: nat)
    ensures 30 <= r <= 120
    ensures !(1 <= level <= 6) ==> r == 30
  {
    if level == 1 then 30
    else if level == 2 then 45
    else if level == 3 then 60
    else if level == 4 then 60
    else if level == 5 then 90
    else if level == 6 then 120
    else 30
  }

  /** Higher tiers never get less time. */
  lemma TimeLimitMonotone(a: int, b: int)
    requires 1 <= a <= b <= 6
    ensures TimeLimit(a) <= TimeLimit(b)
  {
  }

  /** `Math.round(timeSpent)` with `timeSpent` in seconds: the nearest whole
      second. */
  function TimeSpentSeconds(elapsedMs: nat): (r: nat)
    ensures 1000 * (2 * r) <= 2 * elapsedMs + 1000 < 1000 * (2 * r + 2)
  {
    RoundDiv(elapsedMs, 1000)
  }

  /** What one completed test produces. */
  datatype Score = Score(
    wpm: nat,
    accuracy: nat,
    xp: nat,
    errors: seq<SmartText.TypingError>,
    input: Profile.TestInput)

  /** The arithmetic of `handleTestComplete` for a test at `level` with
      reference `ref`, input `typed` and `elapsedMs` milliseconds on the
      clock. The result passed to `addTestResult` carries these numbers,
      the rounded seconds and the reference length. */
  method ScoreTest(level: int, ref: string, typed: string, elapsedMs: nat) returns (s: Score)
    requires elapsedMs > 0
    ensures s.wpm == Wpm(WordCount(typed), elapsedMs)
    ensures s.accuracy == Accuracy(ref, typed) && s.accuracy <= 100
    ensures s.xp == XpReward(level, s.wpm, s.accuracy)
    ensures s.errors == SmartText.ErrorsAt(ref, SmartText.Mismatches(ref, typed))
    ensures s.input == Profile.TestInput(level, s.wpm, s.accuracy, s.xp, TimeSpentSeconds(elapsedMs), |ref|)
  {
    var words := WordCount(typed);
    var wpm := Wpm(words, elapsedMs);
    var correct, errors := InlineErrors(ref, typed);
    var accuracy := RoundDiv(100 * correct, Max(|typed|, 1));
    var xp := XpReward(level, wpm, accuracy);
    s := Score(wpm, accuracy, xp, errors,
               Profile.TestInput(level, wpm, accuracy, xp, TimeSpentSeconds(elapsedMs), |ref|));
  }

  // ---------------------------------------------------------------------
  // No time elapsed
  // ---------------------------------------------------------------------

  /** `Math.round(wordsTyped / timeInMinutes)` on JavaScript numbers: with
      no time elapsed the quotient is `Infinity`. There is always at least
      one word, so it is never `0 / 0`. */
  function WpmAsWritten(words: nat, elapsedMs: nat): Profile.Amount {
    if elapsedMs == 0 then Profile.Infinity else Profile.Whole(Wpm(words, elapsedMs))
  }

  /** `calculatedXP` on JavaScript numbers: an infinite WPM gives an
      infinite speed bonus and so an infinite reward. */
  function XpAsWritten(level: int, wpm: Profile.Amount, accuracy: nat): Profile.Amount {
    if wpm.Infinity? then Profile.Infinity else Profile.Whole(XpReward(level, wpm.value, accuracy))
  }

  /** A test scored with no time elapsed earns `Infinity` XP, and the
      level-up loop of `addTestResult` then never ends: after any number
      of rounds it is still running, one level higher per round. */
  lemma ZeroElapsedNeverSettles(level: int, typed: string, accuracy: nat, p: Profile.UserProfile, k: nat)
    ensures XpAsWritten(level, WpmAsWritten(WordCount(typed), 0), accuracy) == Profile.Infinity
    ensures var held := Profile.AmountPlus(Profile.Whole(p.currentLevelXP),
                                           XpAsWritten(level, WpmAsWritten(WordCount(typed), 0), accuracy));
            var s := Profile.LevelUpRounds(Profile.LoopState(p.level, held, p.xpToNextLevel), k);
            s.level == p.level + k && Profile.AmountAtLeast(s.xp, s.toNext)
  {
    var held := Profile.AmountPlus(Profile.Whole(p.currentLevelXP),
                                   XpAsWritten(level, WpmAsWritten(WordCount(typed), 0), accuracy));
    Profile.InfinityNeverSettles(Profile.LoopState(p.level, held, p.xpToNextLevel), k);
  }

  /** With time elapsed the reward is a whole number, and the loop settles
      in the state `LevelUp` describes. */
  lemma ElapsedTimeSettles(level: int, words: nat, elapsedMs: nat, accuracy: nat, p: Profile.UserProfile)
    requires elapsedMs > 0
    ensures XpAsWritten(level, WpmAsWritten(words, elapsedMs), accuracy)
         == Profile.Whole(XpReward(level, Wpm(words, elapsedMs), accuracy))
    ensures SettlesWith(p, XpReward(level, Wpm(words, elapsedMs), accuracy))
  {
    var reward := XpReward(level, Wpm(words, elapsedMs), accuracy);
    Profile.LevelUpRoundsSettle(p.level, p.currentLevelXP + reward, p.xpToNextLevel, p.currentLevelXP + reward + 2);
  }

  /** The loop of `addTestResult`, fed `reward` more XP, settles within
      `xp + 2` rounds in the state `LevelUp` describes. */
  ghost predicate SettlesWith(p: Profile.UserProfile, reward: nat) {
    var xp := p.currentLevelXP + reward;
    var r := Profile.LevelUp(p.level, xp, p.xpToNextLevel);
    Profile.LevelUpRounds(Profile.LoopState(p.level, Profile.Whole(xp), p.xpToNextLevel), xp + 2)
      == Profile.LoopState(r.level, Profile.Whole(r.currentLevelXP), r.xpToNextLevel)
  }

  // ---------------------------------------------------------------------
  // Completion
  // ---------------------------------------------------------------------

  /** The input completes the test exactly when it equals the reference. */
  predicate CompletesTest(ref: string, typed: string) {
    typed == ref
  }

  /** A completing input scores full accuracy and records no error. */
  lemma CompletionIsPerfect(ref: string, typed: string)
    requires CompletesTest(ref, typed) && ref != []
    ensures Accuracy(ref, typed) == 100
    ensures SmartText.Mismatches(ref, typed) == []
  {
    AllCorrect(ref, |ref|);
    CorrectPlusMismatches(ref, typed, |typed|);
  }

  /** A keystroke in `handleInputChange` that makes the input equal to the
      reference, as written: the new input is stored, but
      `handleTestComplete` runs in the same event and reads the input of
      the previous render, `shown`. So the test is scored on `shown`. */
  method ScoreOnCompletingKeystroke(level: int, ref: string, shown: string, newText: string, elapsedMs: nat)
    returns (s: Option<Score>)
    requires elapsedMs > 0
    ensures newText != ref ==> s == None
    ensures newText == ref ==>
              && s.Some?
              && s.value.wpm == Wpm(WordCount(shown), elapsedMs)
              && s.value.accuracy == Accuracy(ref, shown)
              && s.value.errors == SmartText.ErrorsAt(ref, SmartText.Mismatches(ref, shown))
  {
    if newText == ref {
      var score := ScoreTest(level, ref, shown, elapsedMs);
      s := Some(score);
    } else {
      s := None;
    }
  }

  /** A prefix of the reference is correct at every position. */
  lemma {:induction false} PrefixCorrect(ref: string, typed: string, n: nat)
    requires |typed| <= |ref| && typed == ref[..|typed|] && n <= |typed|
    ensures CorrectBelow(ref, typed, n) == n
  {
    if n > 0 {
      PrefixCorrect(ref, typed, n - 1);
      assert typed[n - 1] == ref[n - 1];
    }
  }

  /** When the completing keystroke types the last character, the input
      scored is the reference without it: a correct prefix, so 100%,
      except for a one-character reference, whose scored input is empty
      and gets 0%. No error is recorded either way. */
  lemma StaleInputOfLastKeystroke(ref: string)
    requires ref != []
    ensures Accuracy(ref, ref[..|ref| - 1]) == (if |ref| == 1 then 0 else 100)
    ensures SmartText.Mismatches(ref, ref[..|ref| - 1]) == []
  {
    var shown := ref[..|ref| - 1];
    PrefixCorrect(ref, shown, |shown|);
    CorrectPlusMismatches(ref, shown, |shown|);
    if |ref| > 1 {
      var n := |shown|;
      RoundDivBetween(100 * n, n, 100, 100);
    }
  }

  /** The completion as evidently intended: the test is scored on the
      completed input, which is the reference itself. */
  method ScoreCompletion(level: int, ref: string, elapsedMs: nat) returns (s: Score)
    requires elapsedMs > 0
    ensures s.wpm == Wpm(WordCount(ref), elapsedMs)
    ensures ref != [] ==> s.accuracy == 100
    ensures s.errors == []
  {
    s := ScoreTest(level, ref, ref, elapsedMs);
    if ref != [] {
      CompletionIsPerfect(ref, ref);
    } else {
      assert SmartText.Mismatches(ref, ref) == [];
    }
  }
}

=== FILE: smart_text.dfy ===
/** The deterministic parts of lib/smart-text-generator.ts: recording the
    mismatches of one test, keeping the most recent errors, analysing them
    into problem characters and character pairs, and choosing how the next
    practice text is built.

    `Math.random()` draws are parameters: each draw of a template is given
    as the index it produces. */
module SmartText {
  import opened Base
  import Profile

  /** An error record `{ char, context? }`. */
  datatype TypingError = TypingError(ch: char, context: Option<string>)

  /** An entry of `problemChars`. */
  datatype ErrorPattern = ErrorPattern(character: char, count: nat, context: seq<string>)

  /** An entry of `problemPairs`. */
  datatype CharacterPair = CharacterPair(pair: string, count: nat)

  datatype Analysis = Analysis(problemChars: seq<ErrorPattern>, problemPairs: seq<CharacterPair>)

  /** Contexts kept per character. */
  const MaxContexts: nat := 5
  /** Length of each returned top list. */
  const TopCount: nat := 10
  /** Errors kept in storage. */
  const StoredErrorCap: nat := 100

  // ---------------------------------------------------------------------
  // trackTypingErrors
  // ---------------------------------------------------------------------

  /** The record for a mismatch at index `i`: the expected character and up
      to two characters of the text on either side. The window is 1 to 5
      characters long and holds the expected character at offset min(i, 2):
      it is the text from up to two before `i` to up to two after it. */
  function ErrorAt(text: string, i: nat): (e: TypingError)
    requires i < |text|
    ensures e.ch == text[i]
    ensures e.context.Some? && 1 <= |e.context.value| <= 5
    ensures Min(i, 2) < |e.context.value| && e.context.value[Min(i, 2)] == text[i]
    ensures |e.context.value| == Min(i, 2) + 1 + Min(|text| - 1 - i, 2)
    ensures forall k :: 0 <= k < |e.context.value| ==> e.context.value[k] == text[i - Min(i, 2) + k]
  {
    TypingError(text[i], Some(text[Max(0, i - 2)..Min(|text|, i + 3)]))
  }

  /** The indices below `n` at which the texts differ, in increasing order. */
  function MismatchesBelow(orig: string, typed: string, n: nat): (r: seq<nat>)
    requires n <= |orig| && n <= |typed|
    ensures forall k :: 0 <= k < |r| ==> r[k] < n && orig[r[k]] != typed[r[k]]
    ensures forall i :: 0 <= i < n && orig[i] != typed[i] ==> i in r
    ensures forall k, l :: 0 <= k < l < |r| ==> r[k] < r[l]
  {
    if n == 0 then []
    else MismatchesBelow(orig, typed, n - 1) + (if orig[n - 1] != typed[n - 1] then [n - 1] else [])
  }

  /** The indices both texts have and at which they differ. */
  function Mismatches(orig: string, typed: string): seq<nat> {
    MismatchesBelow(orig, typed, Min(|orig|, |typed|))
  }

  /** The records for a list of mismatch indices. */
  function ErrorsAt(text: string, idx: seq<nat>): (r: seq<TypingError>)
    requires forall k :: 0 <= k < |idx| ==> idx[k] < |text|
    ensures |r| == |idx|
    ensures forall k :: 0 <= k < |idx| ==> r[k] == ErrorAt(text, idx[k])
  {
    seq(|idx|, k requires 0 <= k < |idx| => ErrorAt(text, idx[k]))
  }

  /** `trackTypingErrors`: one record per index below both lengths at which
      the texts differ, in increasing index order; identical texts give
      none. */
  method TrackTypingErrors(orig: string, typed: string) returns (errors: seq<TypingError>)
    ensures errors == ErrorsAt(orig, Mismatches(orig, typed))
    ensures orig == typed ==> errors == []
  {
    errors := [];
    var n := Min(|orig|, |typed|);
    var i := 0;
    while i < n
      invariant 0 <= i <= n
      invariant errors == ErrorsAt(orig, MismatchesBelow(orig, typed, i))
    {
      ErrorsStep(orig, typed, i);
      if orig[i] != typed[i] {
        errors := errors + [ErrorAt(orig, i)];
      }
      i := i + 1;
    }
    if orig == typed {
      NoMismatchesBelow(orig, n);
    }
  }

  /** Index `i` adds its record exactly when the texts differ there. */
  lemma ErrorsStep(orig: string, typed: string, i: nat)
    requires i < |orig| && i < |typed|
    ensures ErrorsAt(orig, MismatchesBelow(orig, typed, i + 1))
         == ErrorsAt(orig, MismatchesBelow(orig, typed, i)) + (if orig[i] != typed[i] then [ErrorAt(orig, i)] else [])
  {
    var before := MismatchesBelow(orig, typed, i);
    if orig[i] != typed[i] {
      assert MismatchesBelow(orig, typed, i + 1) == before + [i];
      var e := ErrorsAt(orig, before + [i]);
      assert e == ErrorsAt(orig, before) + [ErrorAt(orig, i)];
    } else {
      assert MismatchesBelow(orig, typed, i + 1) == before + [];
      assert before + [] == before;
    }
  }

  lemma {:induction false} NoMismatchesBelow(s: string, n: nat)
    requires n <= |s|
    ensures MismatchesBelow(s, s, n) == []
  {
    if n > 0 {
      NoMismatchesBelow(s, n - 1);
    }
  }

  // ---------------------------------------------------------------------
  // storeTypingErrors
  // ---------------------------------------------------------------------

  /** The list `storeTypingErrors` writes back: the stored errors followed by
      the new ones, cut to the most recent 100. */
  function StoreTypingErrors(stored: seq<TypingError>, errors: seq<TypingError>): (r: seq<TypingError>)
    ensures |r| == Min(|stored| + |errors|, StoredErrorCap)
    ensures r == (stored + errors)[|stored| + |errors| - |r|..]
    ensures |errors| <= StoredErrorCap ==> r[|r| - |errors|..] == errors
  {
    var all := stored + errors;
    if |all| > StoredErrorCap then all[|all| - StoredErrorCap..] else all
  }

  // ---------------------------------------------------------------------
  // analyzeErrors: problem characters
  // ---------------------------------------------------------------------

  /** `if (error.context)`: a context is used only when present and non-empty. */
  predicate HasContext(e: TypingError) {
    e.context.Some? && |e.context.value| > 0
  }

  /** One more error for an entry: the count goes up, and the context is
      appended unless five are kept already (`[...ctx, c].slice(0, 5)`). */
  function Bump(entry: ErrorPattern, e: TypingError): ErrorPattern {
    ErrorPattern(entry.character, entry.count + 1,
                 if HasContext(e) then Take(entry.context + [e.context.value], MaxContexts)
                 else entry.context)
  }

  /** The position of the entry for `c`, if there is one. */
  function FindChar(table: seq<ErrorPattern>, c: char): (r: Option<nat>)
    ensures r.Some? ==> r.value < |table| && table[r.value].character == c
    ensures r.None? ==> forall k :: 0 <= k < |table| ==> table[k].character != c
  {
    if table == [] then None
    else if table[0].character == c then Some(0)
    else
      match FindChar(table[1..], c)
      case None => None
      case Some(k) => Some(k + 1)
  }

  /** Counts one error in the table of problem characters, creating the
      entry at the end (insertion order) when the character is new. */
  function AddCharError(table: seq<ErrorPattern>, e: TypingError): seq<ErrorPattern> {
    match FindChar(table, e.ch)
    case Some(k) => table[k := Bump(table[k], e)]
    case None => table + [Bump(ErrorPattern(e.ch, 0, []), e)]
  }

  /** The errors recorded for `c`. */
  function CountOf(errors: seq<TypingError>, c: char): nat {
    if errors == [] then 0
    else CountOf(errors[..|errors| - 1], c) + (if errors[|errors| - 1].ch == c then 1 else 0)
  }

  /** The usable contexts of the errors recorded for `c`, oldest first. */
  function ContextsOf(errors: seq<TypingError>, c: char): seq<string> {
    if errors == [] then []
    else
      var e := errors[|errors| - 1];
      ContextsOf(errors[..|errors| - 1], c) + (if e.ch == c && HasContext(e) then [e.context.value] else [])
  }

  function SumCounts(table: seq<ErrorPattern>): nat {
    if table == [] then 0 else table[0].count + SumCounts(table[1..])
  }

  predicate DistinctChars(table: seq<ErrorPattern>) {
    forall k, l :: 0 <= k < l < |table| ==> table[k].character != table[l].character
  }

  lemma {:induction false} SumCountsUpdate(table: seq<ErrorPattern>, k: nat, v: ErrorPattern)
    requires k < |table|
    ensures SumCounts(table[k := v]) + table[k].count == SumCounts(table) + v.count
    decreases |table|
  {
    if k > 0 {
      assert table[k := v][1..] == table[1..][k - 1 := v];
      SumCountsUpdate(table[1..], k - 1, v);
    }
  }

  lemma {:induction false} SumCountsSnoc(table: seq<ErrorPattern>, v: ErrorPattern)
    ensures SumCounts(table + [v]) == SumCounts(table) + v.count
    decreases |table|
  {
    if table != [] {
      assert (table + [v])[1..] == table[1..] + [v];
      SumCountsSnoc(table[1..], v);
    }
  }

  lemma TakeSnocTake(xs: seq<string>, x: string, n: nat)
    ensures Take(Take(xs, n) + [x], n) == Take(xs + [x], n)
  {
  }

  /** The problem-character table of `analyzeErrors`, before sorting: one
      entry per distinct character, in first-seen order, whose count is the
      number of its errors and whose contexts are the first five usable
      contexts recorded for it. The counts add up to the number of errors. */
  function CharTable(errors: seq<TypingError>): (t: seq<ErrorPattern>)
    ensures DistinctChars(t)
    ensures forall k :: 0 <= k < |t| ==> t[k].count == CountOf(errors, t[k].character)
    ensures forall k :: 0 <= k < |t| ==> t[k].context == Take(ContextsOf(errors, t[k].character), MaxContexts)
    ensures forall k :: 0 <= k < |t| ==> t[k].count > 0
    ensures forall i :: 0 <= i < |errors| ==> FindChar(t, errors[i].ch).Some?
    ensures SumCounts(t) == |errors|
  {
    if errors == [] then []
    else
      var init := errors[..|errors| - 1];
      var e := errors[|errors| - 1];
      var t0 := CharTable(init);
      CharTableStep(init, e, t0);
      SnocSplit(errors);
      var t := AddCharError(t0, e);
      assert TableInvariant(errors, t);
      t
  }

  /** Each entry counts the errors recorded for its character. */
  ghost predicate CountsAgree(errors: seq<TypingError>, t: seq<ErrorPattern>) {
    forall k :: 0 <= k < |t| ==> t[k].count == CountOf(errors, t[k].character)
  }

  /** Each entry keeps the first five usable contexts of its character. */
  ghost predicate ContextsAgree(errors: seq<TypingError>, t: seq<ErrorPattern>) {
    forall k :: 0 <= k < |t| ==> t[k].context == Take(ContextsOf(errors, t[k].character), MaxContexts)
  }

  predicate AllPositive(t: seq<ErrorPattern>) {
    forall k :: 0 <= k < |t| ==> t[k].count > 0
  }

  /** Every error's character has an entry. */
  ghost predicate Covers(errors: seq<TypingError>, t: seq<ErrorPattern>) {
    forall i :: 0 <= i < |errors| ==> FindChar(t, errors[i].ch).Some?
  }

  /** What `CharTable` promises of its result, for the errors seen so far. */
  ghost predicate TableInvariant(errors: seq<TypingError>, t: seq<ErrorPattern>) {
    && DistinctChars(t)
    && CountsAgree(errors, t)
    && ContextsAgree(errors, t)
    && AllPositive(t)
    && Covers(errors, t)
    && SumCounts(t) == |errors|
  }

  lemma CountOfSnoc(init: seq<TypingError>, e: TypingError, c: char)
    ensures CountOf(init + [e], c) == CountOf(init, c) + (if e.ch == c then 1 else 0)
  {
    assert (init + [e])[..|init|] == init;
  }

  lemma ContextsOfSnoc(init: seq<TypingError>, e: TypingError, c: char)
    ensures ContextsOf(init + [e], c) == ContextsOf(init, c) + (if e.ch == c && HasContext(e) then [e.context.value] else [])
  {
    assert (init + [e])[..|init|] == init;
  }

  lemma CharTableStep(init: seq<TypingError>, e: TypingError, t0: seq<ErrorPattern>)
    requires TableInvariant(init, t0)
    ensures TableInvariant(init + [e], AddCharError(t0, e))
  {
    var t := AddCharError(t0, e);
    match FindChar(t0, e.ch)
    case Some(k) =>
      assert t == t0[k := Bump(t0[k], e)];
      SumCountsUpdate(t0, k, Bump(t0[k], e));
      ShapeStepExisting(e, t0, k);
      CountsStepExisting(init, e, t0, k);
      ContextsStepExisting(init, e, t0, k);
      FindCharComplete(t, k, e.ch);
      CoversAfterStep(init, e, t0, t);
    case None =>
      var v := Bump(ErrorPattern(e.ch, 0, []), e);
      assert t == t0 + [v];
      SumCountsSnoc(t0, v);
      ShapeStepNew(e, t0);
      CountsStepNew(init, e, t0);
      ContextsStepNew(init, e, t0);
      FindCharComplete(t, |t0|, e.ch);
      CoversAfterStep(init, e, t0, t);
  }

  /** Counting an error for a known character changes no character and
      keeps the counts positive. */
  lemma ShapeStepExisting(e: TypingError, t0: seq<ErrorPattern>, k: nat)
    requires DistinctChars(t0) && AllPositive(t0)
    requires FindChar(t0, e.ch) == Some(k)
    ensures var t := AddCharError(t0, e);
            && DistinctChars(t) && AllPositive(t)
            && |t| == |t0| && forall j :: 0 <= j < |t0| ==> t[j].character == t0[j].character
  {
    assert AddCharError(t0, e) == t0[k := Bump(t0[k], e)];
  }

  /** Counting an error for a new character appends its entry. */
  lemma ShapeStepNew(e: TypingError, t0: seq<ErrorPattern>)
    requires DistinctChars(t0) && AllPositive(t0)
    requires FindChar(t0, e.ch).None?
    ensures var t := AddCharError(t0, e);
            && DistinctChars(t) && AllPositive(t)
            && |t| == |t0| + 1 && forall j :: 0 <= j < |t0| ==> t[j].character == t0[j].character
  {
    var v := Bump(ErrorPattern(e.ch, 0, []), e);
    assert AddCharError(t0, e) == t0 + [v];
  }

  lemma CountsStepExisting(init: seq<TypingError>, e: TypingError, t0: seq<ErrorPattern>, k: nat)
    requires DistinctChars(t0) && CountsAgree(init, t0)
    requires FindChar(t0, e.ch) == Some(k)
    ensures CountsAgree(init + [e], AddCharError(t0, e))
  {
    var t := AddCharError(t0, e);
    assert t == t0[k := Bump(t0[k], e)];
    forall j | 0 <= j < |t| ensures t[j].count == CountOf(init + [e], t[j].character) {
      CountOfSnoc(init, e, t[j].character);
    }
  }

  lemma ContextsStepExisting(init: seq<TypingError>, e: TypingError, t0: seq<ErrorPattern>, k: nat)
    requires DistinctChars(t0) && ContextsAgree(init, t0)
    requires FindChar(t0, e.ch) == Some(k)
    ensures ContextsAgree(init + [e], AddCharError(t0, e))
  {
    var t := AddCharError(t0, e);
    assert t == t0[k := Bump(t0[k], e)];
    forall j | 0 <= j < |t| ensures t[j].context == Take(ContextsOf(init + [e], t[j].character), MaxContexts) {
      ContextsOfSnoc(init, e, t[j].character);
      if j == k && HasContext(e) {
        TakeSnocTake(ContextsOf(init, e.ch), e.context.value, MaxContexts);
      }
    }
  }

  lemma CountsStepNew(init: seq<TypingError>, e: TypingError, t0: seq<ErrorPattern>)
    requires CountsAgree(init, t0) && Covers(init, t0)
    requires FindChar(t0, e.ch).None?
    ensures CountsAgree(init + [e], AddCharError(t0, e))
  {
    var t := AddCharError(t0, e);
    assert t == t0 + [Bump(ErrorPattern(e.ch, 0, []), e)];
    CountOfAbsent(init, e.ch, t0);
    forall j | 0 <= j < |t| ensures t[j].count == CountOf(init + [e], t[j].character) {
      CountOfSnoc(init, e, t[j].character);
    }
  }

  lemma ContextsStepNew(init: seq<TypingError>, e: TypingError, t0: seq<ErrorPattern>)
    requires ContextsAgree(init, t0) && Covers(init, t0)
    requires FindChar(t0, e.ch).None?
    ensures ContextsAgree(init + [e], AddCharError(t0, e))
  {
    var t := AddCharError(t0, e);
    assert t == t0 + [Bump(ErrorPattern(e.ch, 0, []), e)];
    ContextsOfAbsent(init, e.ch, t0);
    forall j | 0 <= j < |t| ensures t[j].context == Take(ContextsOf(init + [e], t[j].character), MaxContexts) {
      ContextsOfSnoc(init, e, t[j].character);
    }
  }

  /** A table that keeps the characters of `t0` in place and has an entry
      for `e` has an entry for every error of `init + [e]`. */
  lemma CoversAfterStep(init: seq<TypingError>, e: TypingError, t0: seq<ErrorPattern>, t: seq<ErrorPattern>)
    requires Covers(init, t0)
    requires |t0| <= |t| && forall j :: 0 <= j < |t0| ==> t[j].character == t0[j].character
    requires FindChar(t, e.ch).Some?
    ensures Covers(init + [e], t)
  {
    var errors := init + [e];
    forall i | 0 <= i < |errors|
      ensures FindChar(t, errors[i].ch).Some?
    {
      if i < |init| {
        assert errors[i] == init[i];
        var j := FindChar(t0, init[i].ch).value;
        FindCharComplete(t, j, init[i].ch);
      }
    }
  }

  /** A character that has an entry is found. */
  lemma {:induction false} FindCharComplete(table: seq<ErrorPattern>, k: nat, c: char)
    requires k < |table| && table[k].character == c
    ensures FindChar(table, c).Some?
    decreases |table|
  {
    if table[0].character != c {
      FindCharComplete(table[1..], k - 1, c);
    }
  }

  lemma {:induction false} CountOfAbsent(errors: seq<TypingError>, c: char, t: seq<ErrorPattern>)
    requires forall i :: 0 <= i < |errors| ==> FindChar(t, errors[i].ch).Some?
    requires FindChar(t, c).None?
    ensures CountOf(errors, c) == 0
    decreases |errors|
  {
    if errors != [] {
      var init := errors[..|errors| - 1];
      assert forall i :: 0 <= i < |init| ==> init[i] == errors[i];
      CountOfAbsent(init, c, t);
      assert errors[|errors| - 1].ch != c;
    }
  }

  lemma {:induction false} ContextsOfAbsent(errors: seq<TypingError>, c: char, t: seq<ErrorPattern>)
    requires forall i :: 0 <= i < |errors| ==> FindChar(t, errors[i].ch).Some?
    requires FindChar(t, c).None?
    ensures ContextsOf(errors, c) == []
    decreases |errors|
  {
    if errors != [] {
      var init := errors[..|errors| - 1];
      assert forall i :: 0 <= i < |init| ==> init[i] == errors[i];
      ContextsOfAbsent(init, c, t);
      assert errors[|errors| - 1].ch != c;
    }
  }

  // ---------------------------------------------------------------------
  // analyzeErrors: problem pairs
  // ---------------------------------------------------------------------

  /** `s.indexOf(c)`: the first position of `c` in `s`, or -1. */
  function IndexOf(s: string, c: char): (r: int)
    ensures -1 <= r < |s|
    ensures r >= 0 ==> s[r] == c && forall k :: 0 <= k < r ==> s[k] != c
    ensures r == -1 ==> forall k :: 0 <= k < |s| ==> s[k] != c
  {
    if s == [] then -1
    else if s[0] == c then 0
    else
      var k := IndexOf(s[1..], c);
      if k == -1 then -1 else k + 1
  }

  /** Whether an error's context places the first occurrence of its
      character strictly inside, at position `i`. */
  ghost predicate FirstOccurrenceInterior(ctx: string, c: char, i: int) {
    0 < i < |ctx| - 1 && ctx[i] == c && forall k :: 0 <= k < i ==> ctx[k] != c
  }

  /** The pairs one error counts, in the order they are counted: the
      character before and the character after the first occurrence of the
      error's character in a context of at least three characters, when
      that occurrence is strictly inside the context. */
  function PairKeys(e: TypingError): (keys: seq<string>)
    ensures |keys| == 0 || |keys| == 2
    ensures |keys| == 2 <==>
              e.context.Some? && |e.context.value| >= 3 &&
              exists i :: FirstOccurrenceInterior(e.context.value, e.ch, i)
    ensures |keys| == 2 ==> |keys[0]| == 2 && |keys[1]| == 2 && keys[0][1] == e.ch && keys[1][0] == e.ch
    ensures e.context.Some? && |e.context.value| >= 3 ==>
              forall i :: FirstOccurrenceInterior(e.context.value, e.ch, i) ==>
                keys == [[e.context.value[i - 1], e.ch], [e.ch, e.context.value[i + 1]]]
  {
    if HasContext(e) && |e.context.value| >= 3 then
      var ctx := e.context.value;
      var i := IndexOf(ctx, e.ch);
      if 0 < i < |ctx| - 1 then
        assert FirstOccurrenceInterior(ctx, e.ch, i);
        [[ctx[i - 1], e.ch], [e.ch, ctx[i + 1]]]
      else
        assert forall j :: !FirstOccurrenceInterior(ctx, e.ch, j) by {
          forall j | 0 < j < |ctx| - 1 && ctx[j] == e.ch
            ensures exists k :: 0 <= k < j && ctx[k] == e.ch
          {
            assert 0 <= i < j || i == -1;
          }
        }
        []
    else []
  }

  /** An error at `b` inside "abc" counts "ab" and "bc"; one at `a`, the
      first character of its context, counts none. */
  lemma PairKeysExample()
    ensures PairKeys(TypingError('b', Some("abc"))) == ["ab", "bc"]
    ensures PairKeys(TypingError('a', Some("abc"))) == []
  {
    assert FirstOccurrenceInterior("abc", 'b', 1);
  }

  /** Every pair counted over the errors, in counting order. */
  function AllPairKeys(errors: seq<TypingError>): seq<string> {
    if errors == [] then []
    else AllPairKeys(errors[..|errors| - 1]) + PairKeys(errors[|errors| - 1])
  }

  function FindPair(table: seq<CharacterPair>, key: string): (r: Option<nat>)
    ensures r.Some? ==> r.value < |table| && table[r.value].pair == key
    ensures r.None? ==> forall k :: 0 <= k < |table| ==> table[k].pair != key
  {
    if table == [] then None
    else if table[0].pair == key then Some(0)
    else
      match FindPair(table[1..], key)
      case None => None
      case Some(k) => Some(k + 1)
  }

  lemma {:induction false} FindPairComplete(table: seq<CharacterPair>, k: nat, key: string)
    requires k < |table| && table[k].pair == key
    ensures FindPair(table, key).Some?
    decreases |table|
  {
    if table[0].pair != key {
      FindPairComplete(table[1..], k - 1, key);
    }
  }

  /** `problemPairs[key].count++`, creating the entry when it is new. */
  function AddPair(table: seq<CharacterPair>, key: string): seq<CharacterPair> {
    match FindPair(table, key)
    case Some(k) => table[k := table[k].(count := table[k].count + 1)]
    case None => table + [CharacterPair(key, 1)]
  }

  function SumPairCounts(table: seq<CharacterPair>): nat {
    if table == [] then 0 else table[0].count + SumPairCounts(table[1..])
  }

  lemma {:induction false} SumPairCountsUpdate(table: seq<CharacterPair>, k: nat, v: CharacterPair)
    requires k < |table|
    ensures SumPairCounts(table[k := v]) + table[k].count == SumPairCounts(table) + v.count
    decreases |table|
  {
    if k > 0 {
      assert table[k := v][1..] == table[1..][k - 1 := v];
      SumPairCountsUpdate(table[1..], k - 1, v);
    }
  }

  lemma {:induction false} SumPairCountsSnoc(table: seq<CharacterPair>, v: CharacterPair)
    ensures SumPairCounts(table + [v]) == SumPairCounts(table) + v.count
    decreases |table|
  {
    if table != [] {
      assert (table + [v])[1..] == table[1..] + [v];
      SumPairCountsSnoc(table[1..], v);
    }
  }

  predicate DistinctPairs(table: seq<CharacterPair>) {
    forall k, l :: 0 <= k < l < |table| ==> table[k].pair != table[l].pair
  }

  /** Each entry holds how often its pair was counted. */
  ghost predicate PairCountsAgree(keys: seq<string>, t: seq<CharacterPair>) {
    forall k :: 0 <= k < |t| ==> t[k].count == multiset(keys)[t[k].pair]
  }

  predicate AllPairsPositive(t: seq<CharacterPair>) {
    forall k :: 0 <= k < |t| ==> t[k].count > 0
  }

  /** Every counted pair has an entry. */
  ghost predicate PairCovers(keys: seq<string>, t: seq<CharacterPair>) {
    forall i :: 0 <= i < |keys| ==> FindPair(t, keys[i]).Some?
  }

  ghost predicate PairTableInvariant(keys: seq<string>, t: seq<CharacterPair>) {
    && DistinctPairs(t)
    && PairCountsAgree(keys, t)
    && AllPairsPositive(t)
    && PairCovers(keys, t)
    && SumPairCounts(t) == |keys|
  }

  /** The problem-pair table, before sorting: one entry per distinct pair,
      in first-counted order, holding how often the pair was counted. */
  function PairTable(keys: seq<string>): (t: seq<CharacterPair>)
    ensures DistinctPairs(t)
    ensures forall k :: 0 <= k < |t| ==> t[k].count == multiset(keys)[t[k].pair]
    ensures forall k :: 0 <= k < |t| ==> t[k].count > 0
    ensures forall i :: 0 <= i < |keys| ==> FindPair(t, keys[i]).Some?
    ensures SumPairCounts(t) == |keys|
  {
    if keys == [] then []
    else
      var init := keys[..|keys| - 1];
      var key := keys[|keys| - 1];
      var t0 := PairTable(init);
      PairTableStep(init, key, t0);
      SnocSplit(keys);
      var t := AddPair(t0, key);
      assert PairTableInvariant(keys, t);
      t
  }

  lemma PairTableStep(init: seq<string>, key: string, t0: seq<CharacterPair>)
    requires PairTableInvariant(init, t0)
    ensures PairTableInvariant(init + [key], AddPair(t0, key))
  {
    var t := AddPair(t0, key);
    match FindPair(t0, key)
    case Some(k) =>
      var v := t0[k].(count := t0[k].count + 1);
      SumPairCountsUpdate(t0, k, v);
      PairShapeStepExisting(key, t0, k);
      PairCountsStepExisting(init, key, t0, k);
      FindPairComplete(t, k, key);
      PairCoversAfterStep(init, key, t0, t);
    case None =>
      SumPairCountsSnoc(t0, CharacterPair(key, 1));
      PairShapeStepNew(key, t0);
      PairCountsStepNew(init, key, t0);
      FindPairComplete(t, |t0|, key);
      PairCoversAfterStep(init, key, t0, t);
  }

  /** Counting a known pair again changes no pair and keeps the counts
      positive. */
  lemma PairShapeStepExisting(key: string, t0: seq<CharacterPair>, k: nat)
    requires DistinctPairs(t0) && AllPairsPositive(t0)
    requires FindPair(t0, key) == Some(k)
    ensures var t := AddPair(t0, key);
            && t == t0[k := t0[k].(count := t0[k].count + 1)]
            && DistinctPairs(t) && AllPairsPositive(t)
            && |t| == |t0| && forall j :: 0 <= j < |t0| ==> t[j].pair == t0[j].pair
  {
  }

  /** Counting a new pair appends its entry with count 1. */
  lemma PairShapeStepNew(key: string, t0: seq<CharacterPair>)
    requires DistinctPairs(t0) && AllPairsPositive(t0)
    requires FindPair(t0, key).None?
    ensures var t := AddPair(t0, key);
            && t == t0 + [CharacterPair(key, 1)]
            && DistinctPairs(t) && AllPairsPositive(t) && t[|t0|].pair == key
            && |t| == |t0| + 1 && forall j :: 0 <= j < |t0| ==> t[j].pair == t0[j].pair
  {
  }

  lemma PairCountsStepExisting(init: seq<string>, key: string, t0: seq<CharacterPair>, k: nat)
    requires DistinctPairs(t0) && PairCountsAgree(init, t0)
    requires FindPair(t0, key) == Some(k)
    ensures PairCountsAgree(init + [key], AddPair(t0, key))
  {
    var t := AddPair(t0, key);
    assert t == t0[k := t0[k].(count := t0[k].count + 1)];
    assert multiset(init + [key]) == multiset(init) + multiset{key};
  }

  lemma PairCountsStepNew(init: seq<string>, key: string, t0: seq<CharacterPair>)
    requires PairCountsAgree(init, t0) && PairCovers(init, t0)
    requires FindPair(t0, key).None?
    ensures PairCountsAgree(init + [key], AddPair(t0, key))
  {
    var t := AddPair(t0, key);
    assert t == t0 + [CharacterPair(key, 1)];
    assert multiset(init + [key]) == multiset(init) + multiset{key};
    forall i | 0 <= i < |init| ensures init[i] != key {
      assert FindPair(t0, init[i]).Some?;
    }
    assert key !in init;
    assert multiset(init)[key] == 0;
  }

  /** A table that keeps the pairs of `t0` in place and has an entry for
      `key` has an entry for every pair of `init + [key]`. */
  lemma PairCoversAfterStep(init: seq<string>, key: string, t0: seq<CharacterPair>, t: seq<CharacterPair>)
    requires PairCovers(init, t0)
    requires |t0| <= |t| && forall j :: 0 <= j < |t0| ==> t[j].pair == t0[j].pair
    requires FindPair(t, key).Some?
    ensures PairCovers(init + [key], t)
  {
    var keys := init + [key];
    forall i | 0 <= i < |keys|
      ensures FindPair(t, keys[i]).Some?
    {
      if i < |init| {
        assert keys[i] == init[i];
        var j := FindPair(t0, init[i]).value;
        FindPairComplete(t, j, init[i]);
      }
    }
  }

  // ---------------------------------------------------------------------
  // analyzeErrors: ordering and the result
  // ---------------------------------------------------------------------

  /** Rank given to keys that are not array indices (one above the largest
      array index, 2^32 - 2). */
  const NotAnIndex: int := 4294967295

  predicate IsDigit(c: char) { '0' <= c <= '9' }

  function DigitsValue(s: string): nat {
    if s == [] then 0
    else DigitsValue(s[..|s| - 1]) * 10 + (if IsDigit(s[|s| - 1]) then (s[|s| - 1] - '0') as nat else 0)
  }

  /** A property key that is the canonical decimal form of an array index. */
  predicate IsArrayIndex(key: string) {
    && |key| > 0
    && (forall k :: 0 <= k < |key| ==> IsDigit(key[k]))
    && (|key| == 1 || key[0] != '0')
    && DigitsValue(key) < NotAnIndex
  }

  /** The place of a key in `Object.values` order: array-index keys come
      first in ascending numeric order, all other keys after them in
      insertion order. */
  function KeyRank(key: string): int {
    if IsArrayIndex(key) then DigitsValue(key) else NotAnIndex
  }

  function CharRank(e: ErrorPattern): int { KeyRank([e.character]) }

  function PairRank(e: CharacterPair): int { KeyRank(e.pair) }

  function CharByCount(e: ErrorPattern): int { -(e.count as int) }

  function PairByCount(e: CharacterPair): int { -(e.count as int) }

  /** `Object.values(problemChars)`. */
  function CharsInObjectOrder(t: seq<ErrorPattern>): seq<ErrorPattern> {
    SortBy(t, CharRank)
  }

  /** `Object.values(problemPairs)`. */
  function PairsInObjectOrder(t: seq<CharacterPair>): seq<CharacterPair> {
    SortBy(t, PairRank)
  }

  /** Without digit characters in the table, `Object.values` is plain
      insertion order. */
  lemma ObjectOrderIsInsertionOrder(t: seq<ErrorPattern>)
    requires forall k :: 0 <= k < |t| ==> !IsDigit(t[k].character)
    ensures CharsInObjectOrder(t) == t
  {
    var r := CharsInObjectOrder(t);
    forall k | 0 <= k < |t| ensures CharRank(t[k]) == NotAnIndex {
      assert !IsArrayIndex([t[k].character]) by { assert [t[k].character][0] == t[k].character; }
    }
    forall k | 0 <= k < |r| ensures CharRank(r[k]) == NotAnIndex {
      assert r[k] in multiset(r);
      assert r[k] in multiset(t);
    }
    SortByStable(t, CharRank, NotAnIndex);
    WithKeyAll(t, CharRank, NotAnIndex);
    WithKeyAll(r, CharRank, NotAnIndex);
  }

  /** The first list of `analyzeErrors`: the ten most frequent problem
      characters, most frequent first, ties in `Object.values` order. */
  function ProblemChars(table: seq<ErrorPattern>): (r: seq<ErrorPattern>)
    ensures |r| == Min(|table|, TopCount)
    ensures forall i, j :: 0 <= i < j < |r| ==> r[i].count >= r[j].count
    ensures forall e :: e in r ==> e in table
    ensures multiset(r) <= multiset(table)
    ensures DistinctChars(table) ==> DistinctChars(r)
    ensures forall e :: e in table && e !in r ==> forall k :: 0 <= k < |r| ==> r[k].count >= e.count
  {
    ProblemCharsFacts(table);
    TopBy(CharsInObjectOrder(table), CharByCount, TopCount)
  }

  lemma ProblemCharsFacts(table: seq<ErrorPattern>)
    ensures var r := TopBy(CharsInObjectOrder(table), CharByCount, TopCount);
            && (forall i, j :: 0 <= i < j < |r| ==> r[i].count >= r[j].count)
            && (forall e :: e in r ==> e in table)
            && multiset(r) <= multiset(table)
            && (DistinctChars(table) ==> DistinctChars(r))
            && (forall e :: e in table && e !in r ==> forall k :: 0 <= k < |r| ==> r[k].count >= e.count)
  {
    var ordered := CharsInObjectOrder(table);
    var r := TopBy(ordered, CharByCount, TopCount);
    SameElements(ordered, table);
    if DistinctChars(table) {
      DistinctKeysSub(r, table, (e: ErrorPattern) => e.character);
    }
    CharsCountOrder(r);
    CharsLeftOut(ordered, table, r);
  }

  lemma CharsCountOrder(r: seq<ErrorPattern>)
    requires SortedBy(r, CharByCount)
    ensures forall i, j :: 0 <= i < j < |r| ==> r[i].count >= r[j].count
  {
    forall i, j | 0 <= i < j < |r| ensures r[i].count >= r[j].count {
      assert CharByCount(r[i]) <= CharByCount(r[j]);
    }
  }

  lemma CharsLeftOut(ordered: seq<ErrorPattern>, table: seq<ErrorPattern>, r: seq<ErrorPattern>)
    requires forall e :: e in ordered <==> e in table
    requires forall e :: e in ordered && e !in r ==> forall k :: 0 <= k < |r| ==> CharByCount(r[k]) <= CharByCount(e)
    ensures forall e :: e in table && e !in r ==> forall k :: 0 <= k < |r| ==> r[k].count >= e.count
  {
    forall e, k | e in table && e !in r && 0 <= k < |r| ensures r[k].count >= e.count {
      assert CharByCount(r[k]) <= CharByCount(e);
    }
  }


  /** The second list of `analyzeErrors`, built the same way from pairs. */
  function ProblemPairs(table: seq<CharacterPair>): (r: seq<CharacterPair>)
    ensures |r| == Min(|table|, TopCount)
    ensures forall i, j :: 0 <= i < j < |r| ==> r[i].count >= r[j].count
    ensures forall e :: e in r ==> e in table
    ensures multiset(r) <= multiset(table)
    ensures DistinctPairs(table) ==> DistinctPairs(r)
    ensures forall e :: e in table && e !in r ==> forall k :: 0 <= k < |r| ==> r[k].count >= e.count
  {
    ProblemPairsFacts(table);
    TopBy(PairsInObjectOrder(table), PairByCount, TopCount)
  }

  lemma ProblemPairsFacts(table: seq<CharacterPair>)
    ensures var r := TopBy(PairsInObjectOrder(table), PairByCount, TopCount);
            && (forall i, j :: 0 <= i < j < |r| ==> r[i].count >= r[j].count)
            && (forall e :: e in r ==> e in table)
            && multiset(r) <= multiset(table)
            && (DistinctPairs(table) ==> DistinctPairs(r))
            && (forall e :: e in table && e !in r ==> forall k :: 0 <= k < |r| ==> r[k].count >= e.count)
  {
    var ordered := PairsInObjectOrder(table);
    var r := TopBy(ordered, PairByCount, TopCount);
    SameElements(ordered, table);
    if DistinctPairs(table) {
      DistinctKeysSub(r, table, (e: CharacterPair) => e.pair);
    }
    PairsCountOrder(r);
    PairsLeftOut(ordered, table, r);
  }

  lemma PairsCountOrder(r: seq<CharacterPair>)
    requires SortedBy(r, PairByCount)
    ensures forall i, j :: 0 <= i < j < |r| ==> r[i].count >= r[j].count
  {
    forall i, j | 0 <= i < j < |r| ensures r[i].count >= r[j].count {
      assert PairByCount(r[i]) <= PairByCount(r[j]);
    }
  }

  lemma PairsLeftOut(ordered: seq<CharacterPair>, table: seq<CharacterPair>, r: seq<CharacterPair>)
    requires forall e :: e in ordered <==> e in table
    requires forall e :: e in ordered && e !in r ==> forall k :: 0 <= k < |r| ==> PairByCount(r[k]) <= PairByCount(e)
    ensures forall e :: e in table && e !in r ==> forall k :: 0 <= k < |r| ==> r[k].count >= e.count
  {
    forall e, k | e in table && e !in r && 0 <= k < |r| ensures r[k].count >= e.count {
      assert PairByCount(r[k]) <= PairByCount(e);
    }
  }


  /** `analyzeErrors`. There is a problem character as soon as there is
      one error. */
  function AnalyzeErrors(errors: seq<TypingError>): (a: Analysis)
    ensures a.problemChars == ProblemChars(CharTable(errors))
    ensures a.problemPairs == ProblemPairs(PairTable(AllPairKeys(errors)))
    ensures |errors| > 0 ==> |a.problemChars| > 0
    ensures DistinctChars(a.problemChars) && DistinctPairs(a.problemPairs)
  {
    var chars := CharTable(errors);
    assert |errors| > 0 ==> |chars| > 0;
    Analysis(ProblemChars(chars), ProblemPairs(PairTable(AllPairKeys(errors))))
  }

  // ---------------------------------------------------------------------
  // Choosing the next practice text
  // ---------------------------------------------------------------------

  /** The keys of the template table. */
  datatype Category = Basic | Common | Technical | Punctuation | Numbers

  /** Template `i` of category `c`, counting from 0. */
  function TemplateText(c: Category, i: nat): string
    requires i < 5
  {
    match c
    case Basic =>
      if i == 0 then "The quick brown fox jumps over the lazy dog."
      else if i == 1 then "Pack my box with five dozen liquor jugs."
      else if i == 2 then "How vexingly quick daft zebras jump!"
      else if i == 3 then "Sphinx of black quartz, judge my vow."
      else "Amazingly few discotheques provide jukeboxes."
    case Common =>
      if i == 0 then "Please send the reports to everyone by email."
      else if i == 1 then "The meeting is scheduled for next Tuesday at noon."
      else if i == 2 then "Remember to save your work before closing the application."
      else if i == 3 then "Could you please confirm your reservation for dinner tonight?"
      else "Thank you for your prompt response to our inquiry."
    case Technical =>
      if i == 0 then "function calculateTotal(items) { return items.reduce((sum, item) => sum + item.price, 0); }"
      else if i == 1 then "const userData = await fetchUserProfile(userId); if (userData.status === 200) { renderProfile(userData); }"
      else if i == 2 then "SELECT users.name, orders.date FROM users JOIN orders ON users.id = orders.user_id WHERE orders.status = 'completed';"
      else if i == 3 then "git commit -m 'Fix: resolve issue with authentication middleware' && git push origin main"
      else "<div className=\"container mx-auto p-4\"><h1 className=\"text-2xl font-bold\">Welcome</h1></div>"
    case Punctuation =>
      if i == 0 then "Wait! Did you hear that? Someone's at the door; I'll check who it is."
      else if i == 1 then "\"To be, or not to be: that is the question,\" wrote Shakespeare in Hamlet."
      else if i == 2 then "The package contains: three books, two pens, and a notebook (all new)."
      else if i == 3 then "Can you believe it?! We won the championship \U{E2}\U{20AC}\U{201D} our first in 20 years!"
      else "Please review the document; add comments, if necessary; and return it by Friday."
    case Numbers =>
      if i == 0 then "In 2023, approximately 45% of the 8,500 participants completed the 26.2 mile marathon."
      else if i == 1 then "The password must contain at least 1 uppercase letter, 2 numbers, and 3 special characters."
      else if i == 2 then "The company reported $1,250,000 in revenue for Q3, up 15% from the $1,087,500 in Q2."
      else if i == 3 then "Dial 1-800-555-0123 to reach customer service, available 24/7/365."
      else "The recipe calls for 2 cups of flour, 1/3 cup of sugar, and 3/4 teaspoon of salt."
  }

  /** The five templates of each category, in table order. */
  function Templates(c: Category): (r: seq<string>)
    ensures |r| == 5
    ensures forall i :: 0 <= i < 5 ==> r[i] == TemplateText(c, i)
  {
    seq(5, i requires 0 <= i < 5 => TemplateText(c, i))
  }

  /** The category chain of `generateLevelBasedText`. The `level === 3` and
      `level === 4` tests come after `level <= 4` has already caught those
      levels, so punctuation and numbers are never chosen, and every level
      above 5 falls through to common. */
  function LevelCategory(level: int): (c: Category)
    ensures c != Punctuation && c != Numbers
    ensures c == Basic <==> level <= 2
    ensures c == Common <==> (3 <= level <= 4 || 6 <= level)
    ensures c == Technical <==> level == 5
  {
    if level <= 2 then Basic
    else if level <= 4 then Common
    else if level == 5 then Technical
    else if level == 3 then Punctuation
    else if level == 4 then Numbers
    else Common
  }

  /** The same chain in `generateTargetedText`, whose default is basic: every
      level above 5 gets basic templates there. */
  function TargetedCategory(level: int): (c: Category)
    ensures c != Punctuation && c != Numbers
    ensures c == Basic <==> (level <= 2 || 6 <= level)
    ensures c == Common <==> 3 <= level <= 4
    ensures c == Technical <==> level == 5
  {
    var c := Basic;
    if level <= 2 then Basic
    else if level <= 4 then Common
    else if level == 5 then Technical
    else if level == 3 then Punctuation
    else if level == 4 then Numbers
    else c
  }

  /** The two chains agree up to level 5 and differ on every level above. */
  lemma CategoriesAgreeUpToFive(level: int)
    ensures level <= 5 <==> TargetedCategory(level) == LevelCategory(level)
  {
  }

  /** `numTemplates`: half the level, rounded down, clamped to 1..3. */
  function NumTemplates(level: int): (n: nat)
    ensures 1 <= n <= 3
    ensures n == 1 <==> level <= 3
    ensures n == 3 <==> 6 <= level
    ensures level >= 2 ==> n == Min(level / 2, 3)
  {
    Min(Max(level / 2, 1), 3)
  }

  /** A higher level never combines fewer templates. */
  lemma NumTemplatesMonotone(a: int, b: int)
    requires a <= b
    ensures NumTemplates(a) <= NumTemplates(b)
  {
  }

  /** The templates named by a sequence of random index draws. */
  function Drawn(ts: seq<string>, picks: seq<nat>): (r: seq<string>)
    requires forall k :: 0 <= k < |picks| ==> picks[k] < |ts|
    ensures |r| == |picks|
    ensures forall t :: t in r ==> t in ts
  {
    var r := seq(|picks|, k requires 0 <= k < |picks| => ts[picks[k]]);
    assert forall k :: 0 <= k < |r| ==> r[k] in ts;
    r
  }

  /** The selection loop of `generateLevelBasedText`, fed by the draws
      `picks`: a draw is kept unless its template was kept already, until
      `n` are kept. The selection is the first `n` distinct templates drawn,
      so they are pairwise distinct; it exists exactly when the draws name
      at least `n` distinct templates (otherwise the loop would go on
      drawing), and the loop stops at the draw that completes it. */
  method SelectTemplates(ts: seq<string>, picks: seq<nat>, n: nat)
    returns (selected: Option<seq<string>>, used: nat)
    requires forall k :: 0 <= k < |picks| ==> picks[k] < |ts|
    ensures selected.Some? <==> n <= |FromSeq(Drawn(ts, picks))|
    ensures selected.Some? ==> selected.value == Take(FromSeq(Drawn(ts, picks)), n)
    ensures selected.Some? ==> |selected.value| == n && NoDuplicates(selected.value)
    ensures selected.Some? ==> forall t :: t in selected.value ==> t in ts
    ensures used <= |picks|
    ensures selected.Some? ==> selected.value == FromSeq(Drawn(ts, picks)[..used])
    ensures selected.Some? && 0 < used ==> |FromSeq(Drawn(ts, picks)[..used - 1])| < n
  {
    var acc, i := FirstDistinct(Drawn(ts, picks), n);
    used := i;
    FromSeqPrefixFirst(Drawn(ts, picks), i, n);
    if |acc| < n {
      selected := None;
    } else {
      selected := Some(acc);
    }
  }

  /** `Array.join`. */
  function Join(xs: seq<string>, sep: string): (r: string)
    ensures |xs| == 1 ==> r == xs[0]
    ensures 0 < |xs| ==> |xs[0]| <= |r| && r[..|xs[0]|] == xs[0]
  {
    if |xs| == 0 then ""
    else if |xs| == 1 then xs[0]
    else xs[0] + sep + Join(xs[1..], sep)
  }

  /** What `generateSmartText` decides before any random draw: which path,
      which category and how many templates, or which characters and pairs
      the custom sentence is asked to practise. */
  datatype Plan =
    | LevelBased(category: Category, count: nat)
    | Targeted(category: Category, topChars: seq<char>, topPairs: seq<string>)

  /** `problemChars.slice(0, 5).map(p => p.character)`. */
  function TopChars(chars: seq<ErrorPattern>): (r: seq<char>)
    ensures |r| == Min(|chars|, 5)
    ensures forall k :: 0 <= k < |r| ==> r[k] == chars[k].character
  {
    seq(Min(|chars|, 5), k requires 0 <= k < Min(|chars|, 5) => chars[k].character)
  }

  /** `problemPairs.slice(0, 3).map(p => p.pair)`. */
  function TopPairs(pairs: seq<CharacterPair>): (r: seq<string>)
    ensures |r| == Min(|pairs|, 3)
    ensures forall k :: 0 <= k < |r| ==> r[k] == pairs[k].pair
  {
    seq(Min(|pairs|, 3), k requires 0 <= k < Min(|pairs|, 3) => pairs[k].pair)
  }

  /** The dispatch of `generateSmartText`: without errors the level-based
      path; with errors the targeted path, which is then always taken because
      one error already yields a problem character. The targeted plan asks
      for at least one and at most five characters and at most three
      pairs. */
  function SmartPlan(level: int, errors: seq<TypingError>): (p: Plan)
    ensures p.LevelBased? <==> |errors| == 0
    ensures p.LevelBased? ==> p.category == LevelCategory(level) && p.count == NumTemplates(level)
    ensures p.Targeted? ==> p.category == TargetedCategory(level)
    ensures p.Targeted? ==> 1 <= |p.topChars| <= 5 && |p.topPairs| <= 3
    ensures p.Targeted? ==>
      && p.topChars == TopChars(AnalyzeErrors(errors).problemChars)
      && p.topPairs == TopPairs(AnalyzeErrors(errors).problemPairs)
  {
    if |errors| == 0 then LevelBased(LevelCategory(level), NumTemplates(level))
    else
      var a := AnalyzeErrors(errors);
      if |a.problemChars| > 0 then
        Targeted(TargetedCategory(level), TopChars(a.problemChars), TopPairs(a.problemPairs))
      else LevelBased(LevelCategory(level), NumTemplates(level))
  }

  /** `generateSmartText`. `picks` are the template index draws and
      `sentence` is what `createCustomSentence` returns for the plan's
      characters and pairs. The level-based text joins the first
      `NumTemplates` distinct templates drawn; the targeted text is the
      first drawn template of the targeted category, a space, and the
      sentence. There is no text when the draws run out first. */
  method GenerateSmartText(profile: Profile.UserProfile, errors: seq<TypingError>,
                           picks: seq<nat>, sentence: string)
    returns (text: Option<string>)
    requires forall k :: 0 <= k < |picks| ==> picks[k] < 5
    ensures |errors| == 0 ==>
      var ts := Templates(LevelCategory(profile.level));
      var n := NumTemplates(profile.level);
      && (text.Some? <==> n <= |FromSeq(Drawn(ts, picks))|)
      && (text.Some? ==> text.value == Join(Take(FromSeq(Drawn(ts, picks)), n), " "))
    ensures |errors| > 0 ==>
      text == if |picks| == 0 then None
              else Some(Templates(TargetedCategory(profile.level))[picks[0]] + " " + sentence)
  {
    var plan := SmartPlan(profile.level, errors);
    match plan
    case LevelBased(c, n) =>
      var selected, _ := SelectTemplates(Templates(c), picks, n);
      text := if selected.Some? then Some(Join(selected.value, " ")) else None;
    case Targeted(c, _, _) =>
      text := if |picks| == 0 then None else Some(Templates(c)[picks[0]] + " " + sentence);
  }

}
